=== FILE: README.md ===
# V2D job engine — a Dafny model

This project models the user-space side of the SpacemiT V2D 2D-accelerator
library (`lib/v2d.c`) and the arithmetic and argument handling of its test
program (`v2d_test.c`).

A client uses the library in three steps:

- It opens a **job** with `V2D_BeginJob`.
- It appends up to 64 **tasks** with `V2D_AddFillTask`, `V2D_AddBitblitTask`
  or `V2D_AddBlendTask`. Each call builds one zero-filled `V2D_SUBMIT_TASK_S`
  record.
- It submits the job with `V2D_EndJob`, which does four things:
  - opens `/dev/v2d_dev` lazily, keeping the descriptor in the process-wide
    `gFd`;
  - writes every task node, record and link pointer, to the device in list
    order (`V2dSubmitJob`);
  - drains the two fences the kernel returns per record (`v2d_lock_async`,
    `sync_wait`);
  - frees the task list and the job (`freeList`).

The model is functional:

- A job is a datatype holding the sequence of task records.
- `gFd` is a `Device` value passed in and handed back.
- The kernel is an `Env` of oracle replies: the result of `open`, the reply
  to the write of the n-th record, and the poll replies for the n-th fence
  wait.
- Every `open`, `write` to the device, `poll`, `close` and `free` is
  recorded as an `Event` in a log, and the properties are stated on that
  log.

Modules, in dependency order:

| file | module | models |
|---|---|---|
| `types.dfy` | `V2dTypes` | the parameter records of one hardware operation |
| `task_builder.dfy` | `TaskBuilder` | the record each Add call builds |
| `job_queue.dfy` | `JobQueue` | job, handle, BeginJob, the three Add calls, the 64-task bound |
| `syscalls.dfy` | `Syscalls` | kernel constants, oracle replies, the event log |
| `fence_sync.dfy` | `FenceSync` | `sync_wait`, `v2d_lock_async` |
| `submission.dfy` | `Submission` | `V2dSubmitJob`, `freeList`, `V2D_EndJob`, `gFd` |
| `properties.dfy` | `JobProperties` | whole-call properties of `V2D_EndJob` |
| `scenarios.dfy` | `Scenarios` | the jobs the test program issues |
| `test_driver.dfy` | `TestDriver` | `ALIGN_UP`/`PAGESIZE` and the dispatch of `main` |

In several places the code does something a caller could easily expect
to be otherwise. The model follows the code:

- **Result of `V2D_EndJob`.** `V2dSubmitJob` assigns `ret` once per task in
  the drain loop (lib/v2d.c:109-116), so the result is the wait result of
  the **last** task, not the first failure. An earlier timeout is lost when
  the last fence signals (`Scenarios.LastWaitWins`).
- **Acquire fences.** An acquire fence is closed only when it is `> 0`
  (lib/v2d.c:112-113), although 0 is a valid descriptor, so an acquire
  fence numbered 0 is never closed.
- **Rejected writes.** After a rejected write `V2dSubmitJob` returns before
  the drain (lib/v2d.c:100-104), so the fences of the records already
  accepted are neither waited on nor closed
  (`Scenarios.ShortWriteLeaksEarlierFences`).
- **Allocation failures.** A failed job allocation makes `V2D_BeginJob`
  return FAILURE (lib/v2d.c:122-127), but a failed task-node allocation in
  the Add calls ends the process with `exit(-1)`.
- **Opening the device.** `gFd` is a plain global tested and assigned
  without a lock (lib/v2d.c:16, 143-150), so two threads ending jobs at
  once may both open the device.
- **FAILURE and a timed-out fence.** The functions return a plain `int`.
  If FAILURE is -1, a rejected write and a last fence that timed out give
  the caller the same value (`Scenarios.FailureCanLookLikeTimeout`).

## Model

| member | source | states |
|---|---|---|
| TaskBuilder.FillTask | lib/v2d.c:192-214 | The fill record has a solid-colour layer 0 holding the caller's colour, conversion mode V2D_CSC_MODE_BUTT on layer 0, the destination copied when given (zero otherwise), the destination rectangle, blend command ALPHA with background colour disabled, and a layer-0 blend area equal to the destination rectangle. Every other field is zero and both fence slots are 0. |
| TaskBuilder.BlitTask | lib/v2d.c:251-267 | The blit record has the source as layer 0 with its rectangle, the destination with its rectangle, conversion mode V2D_CSC_MODE_BUTT on layer 0, a zero blend command, and a layer-0 blend area equal to the destination rectangle. Nothing else is set. |
| TaskBuilder.BlendTask | lib/v2d.c:316-352 | Background → layer 0 and foreground → layer 1, with back/fore conversion and rotation selectors swapped into l0/l1. Each of the ten pointer arguments is copied when non-null and leaves its field zero otherwise. |
| TaskBuilder.BlitIgnoresCscMode | lib/v2d.c:227-267 | The conversion-mode argument of the blit call never reaches the record. |
| TaskBuilder.BlendOfNothingIsZero | lib/v2d.c:316-352 | A blend with only null pointers and zero selectors is the zero-filled record. |
| TaskBuilder.FillRecordDeterminesInputs | lib/v2d.c:192-214 | A fill record with a destination determines its destination, rectangle and colour: two such calls that build the same record had the same arguments. |
| JobQueue.BeginJob | lib/v2d.c:119-134 | SUCCESS exactly when the allocation succeeds. The new job is empty, has kind TASK_NONE and satisfies the count invariant. On failure the result is FAILURE with no job. |
| JobQueue.Enqueue | lib/v2d.c:174-222 | A null handle gives FAILURE. A full job gives FAILURE with the job unchanged (the count is incremented and then decremented). A failed node allocation exits with -1. Otherwise the record is appended at the tail, the kind is set and the count goes up by one. The invariant count == number of tasks <= 64 is preserved. |
| JobQueue.AddFillTask | lib/v2d.c:167-225 | The same outcomes as the shared part, appending the fill record with kind FILL. |
| JobQueue.AddBitblitTask | lib/v2d.c:227-279 | The same outcomes, appending the blit record with kind TASK_NONE. |
| JobQueue.AddBlendTask | lib/v2d.c:280-362 | The same outcomes, appending the blend record with kind BLEND. |
| JobQueue.AddStep | lib/v2d.c:178-222 | Below 64 tasks, an Add call appends exactly the record it builds. At 64 tasks it fails and returns the job as it was. |
| JobQueue.AddAllKeepsFirst64 | lib/v2d.c:178-184 | Any sequence of Add calls on a fresh job leaves a valid job holding exactly the records of the first 64 calls, in call order. |
| JobQueue.SixtyFifthAddFails | lib/v2d.c:178-184 | The 65th Add call on a job returns FAILURE and leaves all 64 tasks in place. |
| JobQueue.KindMarkerConflatesFillAndBlend | lib/v2d.c:18-25 | FILL and BLEND are both 3, so the kind marker cannot tell a fill job from a blend job. |
| FenceSync.PollLoop | lib/v2d.c:65-76 | Every poll interrupted with -1 is retried on the same descriptor with the same timeout. The final reply maps as follows: ready without POLLERR/POLLNVAL → 0, ready with one of them → -1, timeout → -1, any other negative value → that value. |
| FenceSync.SyncWait | lib/v2d.c:56-77 | A negative descriptor gives -1 without polling. Otherwise the result is 0 exactly when the fence became ready with no error bit; it is never positive, and it is 0 or -1 unless poll failed with a value below -1. |
| FenceSync.LockAsync | lib/v2d.c:79-88 | An absent fence (< 0) gives 0 and no calls. Otherwise the wait uses the 3000 ms timeout, the result is the wait result, and the fence is closed afterwards whatever that result. The fence is the only descriptor closed. |
| FenceSync.HangUpIsSuccess | lib/v2d.c:67-71 | A ready fence counts as signalled unless POLLERR or POLLNVAL is set: a hang-up alone is success. |
| Submission.FirstShort | lib/v2d.c:95-104 | The position of the first write the kernel does not accept; every write before it is accepted. |
| Submission.WriteLoop | lib/v2d.c:94-106 | Records go to `gFd` in list order, with both fence slots reset to -1 before each write. The loop stops right after the first rejected write and completes exactly when there is none. When it completes, the records hold the fences the kernel returned. |
| Submission.ExpectedCloses | lib/v2d.c:108-115 | Reference definition: a descriptor is expected to be closed iff it is a completion fence >= 0 or an acquire fence > 0 of some record. |
| Submission.DrainLoop | lib/v2d.c:108-116 | The drain only polls and closes. Its result is the wait result of the last record, and is unchanged when there is no record. |
| Submission.DrainCloses | lib/v2d.c:108-115 | The drain closes exactly the expected descriptors, in list order: for each record, its completion fence, then its acquire fence. |
| Submission.DrainPolls | lib/v2d.c:108-115 | Every poll of the drain waits on a completion fence >= 0 of the job with the 3000 ms timeout. The converse is `Submission.DrainWaitsEveryFence`. |
| Submission.DrainWaitsEveryFence | lib/v2d.c:79-116 | Every completion fence >= 0 of the job is polled with the 3000 ms timeout and closed at a later position of the drain's log. |
| Submission.SubmitJob | lib/v2d.c:90-117 | FAILURE exactly when some write is rejected. An empty job returns an unspecified value (`ret` is never assigned) and makes no call. Apart from the stdout diagnostic after a rejected write (not modelled), its only calls are writes to `gFd`, polls and closes. |
| Submission.FreeList | lib/v2d.c:44-54 | Every node from the given position on is freed exactly once, and nothing else. |
| Submission.OpenAndSubmit | lib/v2d.c:143-156 | The device is opened only while `gFd` < 0. A failed open resets `gFd` to -1 and gives FAILURE without writing. A successful open stores the descriptor, and every write goes to the descriptor left in `gFd`. |
| Submission.ReleaseAll | lib/v2d.c:157-163 | Appending the frees of the list and of the job to a free-less log frees every node once and the job once, last. |
| Submission.EndJob | lib/v2d.c:136-166 | A null handle gives FAILURE and makes no call. An open `gFd` is kept. A successful open is remembered in `gFd`. A failed open gives FAILURE and leaves `gFd` at -1. For a live handle the last event is the free of the job. |
| Submission.EndJobReleasesEverything | lib/v2d.c:157-163 | Whatever submission does, a live job's nodes are each freed once and the job once. The null handle frees nothing. |
| Submission.EndJobOpensLazily | lib/v2d.c:143-156 | No open when `gFd` >= 0. Otherwise exactly one open, first. No write after a failed open, and every write goes to the descriptor in `gFd`. |
| JobProperties.EndJobLogShape | lib/v2d.c:136-166 | The log of `V2D_EndJob` is the open (when `gFd` < 0), then the submission, then the frees. |
| JobProperties.EndJobRet | lib/v2d.c:143-156 | With a device available, `V2D_EndJob` returns what `V2dSubmitJob` returned. |
| JobProperties.EndJobWrites | lib/v2d.c:143-163 | The open and the frees write nothing: the records written are those of the submission. |
| JobProperties.EndJobCloses | lib/v2d.c:143-163 | The open and the frees close nothing: the descriptors closed are those of the submission. |
| JobProperties.EndJobPolls | lib/v2d.c:143-163 | Every poll of `V2D_EndJob` is a poll of the submission. |
| JobProperties.SubmitWrites | lib/v2d.c:94-106 | The device receives the records in list order, fences reset, up to and including the first rejected one. After a rejection nothing is polled or closed. |
| JobProperties.EndJobWritesInListOrder | lib/v2d.c:94-106 | The same, for a whole `V2D_EndJob` call. The call fails iff some write is rejected. |
| JobProperties.AcceptedSubmission | lib/v2d.c:90-117 | When every write is accepted, submission is the write loop followed by the drain of the fenced records. |
| JobProperties.SubmitCloses | lib/v2d.c:108-115 | When every write is accepted, submission closes exactly the expected fences. |
| JobProperties.SubmitPolls | lib/v2d.c:108-115 | When every write is accepted, every poll waits on a completion fence with the 3000 ms timeout. The converse is `JobProperties.SubmitWaitsEveryFence`. |
| JobProperties.SubmitWaitsEveryFence | lib/v2d.c:90-117 | When every write is accepted, every completion fence >= 0 the kernel returned is polled with the 3000 ms timeout and then closed. |
| JobProperties.SubmitRet | lib/v2d.c:108-116 | When every write is accepted, submission returns the wait result of the last task. |
| JobProperties.EndJobClosesFences | lib/v2d.c:108-115 | When every write is accepted, `V2D_EndJob` closes every completion fence >= 0 and every acquire fence > 0 the kernel returned, in list order, and nothing else. |
| JobProperties.EndJobPollsFences | lib/v2d.c:108-111 | When every write is accepted, every poll of `V2D_EndJob` waits 3000 ms on a completion fence the kernel returned. The converse is `JobProperties.EndJobWaitsEveryFence`. |
| JobProperties.EndJobWaitsEveryFence | lib/v2d.c:136-166 | When every write is accepted, `V2D_EndJob` polls every completion fence >= 0 the kernel returned with the 3000 ms timeout and closes it afterwards. |
| JobProperties.EndJobReportsLastWait | lib/v2d.c:108-116 | When every write is accepted, `V2D_EndJob` reports the wait result of the last task, or an unspecified value for an empty job. |
| JobProperties.DeviceStateAcrossJobs | lib/v2d.c:143-156 | After a successful open the next call reuses `gFd` without opening and writes only to it. After a failed open the call fails and the next call opens again. |
| JobProperties.BuiltRecordsWritten | lib/v2d.c:94-106 | For a job holding the records of some requests, with every write accepted, the device receives exactly those records, one per request in request order, with both fence slots reset to -1. The node's link pointer, which the write also carries, is not in the model. |
| JobProperties.CallOrderIsWriteOrder | lib/v2d.c:174-222 | End to end: any sequence of Add calls on a fresh job, then `V2D_EndJob` with every write accepted, sends the records of the first 64 calls in call order, fences reset, and no others (the link pointer each write also carries is not in the model). |
| JobProperties.EndJobReturnValue | lib/v2d.c:99-116 | The `int` the caller receives, for any nonzero FAILURE: FAILURE after a rejected write, the last task's wait result when every write is accepted, and so, for a non-empty job, a 0 result means every write was accepted. |
| Scenarios.FillTestRun | v2d_test.c:411-443 | The fill test's job, under a kernel that opens the device, accepts the write with no acquire fence and signals the completion fence on its first poll, produces this exact log: open, one write of the fill record with fences -1, one poll of its completion fence, its close, the node free and the job free. The call returns 0. |
| Scenarios.FillOnFreshJob | v2d_test.c:429-438 | A fill on a fresh job succeeds and leaves a FILL job holding exactly that fill record. |
| Scenarios.BlitOnFreshJob | v2d_test.c:526-535 | A blit on a fresh job succeeds and leaves a TASK_NONE job holding exactly that blit record. |
| Scenarios.QuietSubmitOne | lib/v2d.c:90-117 | A one-record submission whose write is accepted and whose fence signals at once: one write with fences -1, one poll of the completion fence, its close, result 0. |
| Scenarios.EndJobOneRecord | lib/v2d.c:143-163 | On a one-record job and an unopened device whose open succeeds, the log is the open, the submission's log, then the node free and the job free; the result is the submission's. |
| Scenarios.QuietOneRecordJob | lib/v2d.c:136-166 | The whole `V2D_EndJob` on a one-record job under that kernel: exactly open, write, poll, close, the two frees, and result 0. |
| Scenarios.BlitTestRun | v2d_test.c:470-541 | For any leftover solid colour in the uncleared source, the blit test's job holds the one blit record and, under a kernel that opens the device, accepts the write with no acquire fence and signals the completion fence on its first poll, produces this exact log: open, the write with fences -1, one poll and the close of its completion fence, the two frees. The call returns 0. The record carries the source as given, leftover included, and the destination with their rectangles. The conversion-mode argument does not reach the record, whose l0_csc is V2D_CSC_MODE_BUTT whatever is passed. |
| Scenarios.BlitTestSource | v2d_test.c:498-506 | The blit test's source is the configured 320x240 RGBA8888 input surface except for its solid colour, which is whatever the stack held. |
| Scenarios.LeftoverSolidColorReachesDevice | v2d_test.c:498-531 | With an enabled solid colour left on the stack, the record the test writes has that solid colour on layer 0, so layer 0 is not the configured input surface. |
| Scenarios.BlitTestRunClearedSource | v2d_test.c:498-540 | With `stSrc` cleared, layer 0 is exactly the configured input surface, its solid colour is disabled, and the call still returns 0. |
| Scenarios.SimpleBlendRecord | v2d_test.c:333-347 | For any background and destination surfaces and rectangles, the simple-case blend (blend configuration cleared except for its layer-0 area, no foreground, mask or palette) succeeds on a fresh job, marks it BLEND, and builds one record with the two surfaces and rectangles and the configuration as given, and layer 1, mask and palette zero. |
| Scenarios.TwoBlitsJob | lib/v2d.c:227-279 | Two blits on a fresh job leave a TASK_NONE job of count 2 holding both records, in call order. |
| Scenarios.TwoBlitsInOrder | lib/v2d.c:94-116 | Two blits in one job reach the device in call order, and the call reports the last wait. |
| Scenarios.LastWaitWins | lib/v2d.c:108-116 | A first fence that times out is not reported when the second signals. A second fence that times out is reported even when the first signalled. |
| Scenarios.ShortWriteLeaksEarlierFences | lib/v2d.c:99-104 | When the second write is rejected, the fences the first write returned are neither waited on nor closed, and the call fails. |
| Scenarios.FailureCanLookLikeTimeout | lib/v2d.c:72-116 | On a two-record job, a rejected second write returns FAILURE and a last fence that times out returns -1; when FAILURE is -1 the caller receives the same value for both. |
| TestDriver.AlignUp | v2d_test.c:42 | ALIGN_UP on uint64: the result is a multiple of the alignment. Without wrap it lies in [size, size + shift). When the 64-bit sum wraps, it is below the alignment. |
| TestDriver.AlignUpIsLeastMultiple | v2d_test.c:42 | Without wrap, ALIGN_UP is the least multiple of the alignment that is >= size. |
| TestDriver.AlignUpKeepsMultiples | v2d_test.c:42 | An already aligned size is unchanged, so rounding is idempotent. |
| TestDriver.AlignUpWrapsNearTop | v2d_test.c:38-43 | With a 64-bit size, ALIGN_UP(2^64 - 1, PAGESIZE) wraps to 0. |
| TestDriver.MapSize | v2d_test.c:264-270 | The page-rounded size stored in an `unsigned int` is below 2^32, and is page-aligned and within one page above the size when no truncation occurs. |
| TestDriver.AdvBlendMapSizes | v2d_test.c:129-132 | The blend test's buffers of 120000 and 235200 bytes map as 122880 and 237568. |
| TestDriver.SimpleCaseMapSize | v2d_test.c:267-270 | The simple case's buffers of 115200 bytes map as 118784. |
| TestDriver.RgbaMapSize | v2d_test.c:485-488 | The blit test's buffers of 320*240*4 = 307200 bytes, page-aligned already, map as 307200; the fill test's buffer at v2d_test.c:401-402 is the same size. |
| TestDriver.Dispatch | v2d_test.c:571-606 | Usage iff there are fewer than two arguments. The rate branch (exactly `--rate` and 204M/307M/491M) writes 204800000/307200000/491520000 to the clkrate file and runs the simple case. Otherwise `argv[1]` alone selects blend, fill, blit, help or input error. |
| TestDriver.MainReturn | v2d_test.c:567-610 | `main` returns -1 for usage, 0 for help and input errors, and the test's result when a test runs. |
| TestDriver.OnlyFirstOptionCounts | v2d_test.c:582-606 | Outside the rate branch, extra arguments are ignored: the same `argv[1]` gives the same branch. |
| TestDriver.ErrorsExitZero | v2d_test.c:582-609 | `--rate` with a missing or extra argument is an input error and `main` returns 0. |

## Left out

- The system calls (`open`, `write`, `poll`, `close`) and `malloc`/`free` are
  not executed. Their results are oracle inputs, and their effects are
  events in a log.
- The enumerator values (colour formats, V2D_CSC_MODE_BUTT,
  V2D_BLENDCMD_ALPHA, rotations, dither modes, SUCCESS/FAILURE) are defined
  in `v2d_type.h`, which is not part of this model. They are symbolic names,
  and only their equality is used.
- Each `write` sends the whole list node, `sizeof(V2D_TASK_S)` bytes
  (lib/v2d.c:27-31, 99): the submit record and the `pNext` link, which is
  the user-space address of the next node, or NULL for the last one. The
  `Write` event records only the submit record; the link pointer is not
  modelled, because the model has no addresses.
- `sizeof(V2D_TASK_S)` is unknown. A write reply is "accepted with these two
  fences" or "short".
- A poll that returns -1 forever is not modelled. Each fence wait is a
  finite number of interrupted polls followed by a final reply.
- The data race on `gFd` between threads, and concurrent use of one job, are
  not modelled. The model is single-threaded.
- The `uint32_t count` of a job cannot wrap: the bound of 64 is checked
  before it could.
- Surfaces, blend layers and palettes carry only the fields the library
  reads or writes. The surfaces' FBC decoder/encoder settings are absent
  from `Surface`; a blend layer keeps only its blend area; a palette is a
  length and a list of entries, copied as a whole. The exact layouts are
  in `v2d_type.h`, which is not part of this model.
- The fill rectangle is tested for NULL at lib/v2d.c:203, but a NULL
  rectangle then faults at lines 211-214, where it is dereferenced
  unconditionally; the model takes the rectangle by value. The colour
  (line 198) and every pointer of the blit call are dereferenced
  unconditionally too.
- The diagnostics the library prints to stdout with `printf` on its
  failure paths (lib/v2d.c:102, 125, 151, 181, 189, 240, 248, 305, 313)
  are not modelled; the log holds only the device, fence and heap events.
- The `dmabufheap` allocator, `mmap`/`munmap`, `readFile`/`writeFile`, the
  result comparisons and the image files of `v2d_test.c` are not part of
  this model. They are buffer plumbing around the library calls.
- `write_sysfile` is not executed. The dispatch records which file and value
  it is given; `main` ignores its result.
- The bodies of the four test cases beyond their library calls are not
  modelled. `MainReturn` takes the test's result as an input.
- Submission.EndJob: its own contract does not describe the log beyond its
  last event. The log is described by EndJobLogShape, EndJobWritesInListOrder,
  EndJobClosesFences, EndJobPollsFences, EndJobWaitsEveryFence,
  EndJobReleasesEverything and EndJobOpensLazily.
- JobProperties.EndJobClosesFences: stated only for jobs whose writes are all
  accepted. After a rejected write nothing is closed, as
  EndJobWritesInListOrder states.
- Submission.SubmitJob: `Failed` is told apart from a wait result by the
  path that produced it, not by its value. FAILURE's value is in
  `v2d_type.h`, which is not part of this model, and it may equal a wait
  result of -1 (`Scenarios.FailureCanLookLikeTimeout`). The value a caller
  receives is stated by `JobProperties.EndJobReturnValue`, in one direction
  only.
- JobProperties.EndJobWritesInListOrder: "the call fails iff some write is
  rejected" is about the `Failed` result, not the `int` a caller receives,
  for the same reason.

- JobProperties.BuiltRecordsWritten: "exactly those records" is about the
  submit records; the link pointer each write also carries is not modelled
  (see above).
- JobProperties.CallOrderIsWriteOrder: the same.
- JobQueue.BeginJob: on a failed allocation the source returns FAILURE and
  leaves the caller's handle unwritten (lib/v2d.c:123-127), so a later call
  on it uses whatever the handle held. The model hands back the null
  handle instead, on which the Add calls and `V2D_EndJob` fail cleanly.

## Findings

| source | as written | input that shows it | evidently intended | confidence | as-written member | corrected member |
|---|---|---|---|---|---|---|
| v2d_test.c:499 | `v2d_blit_test` clears `stDst` twice (lines 499 and 512) and never clears `stSrc`, so the source's solid colour, its enable flag included, is uninitialised stack memory that `V2D_AddBitblitTask` copies into layer 0 | a stack that holds an enabled solid colour where `stSrc.solidcolor` lies | `memset(&stSrc, 0, sizeof(V2D_SURFACE_S))` at line 499 | not executed | Scenarios.LeftoverSolidColorReachesDevice | Scenarios.BlitTestRunClearedSource |

=== FILE: fence_sync.dfy ===
/**
  The fence wait of lib/v2d.c: `sync_wait` polls one fence descriptor,
  retrying while `poll` returns -1, and `v2d_lock_async` waits on a
  completion fence and then closes it.
*/
module FenceSync {
  import opened Syscalls

  /** The result of a wait together with the system calls it made. */
  datatype Wait = Wait(ret: int, log: seq<Event>)

  /** True iff the returned events report an error or an invalid descriptor. */
  predicate ErrorReported(revents: bv16)
  {
    revents & (PollErr | PollNval) != 0
  }

  /** The `do ... while (ret == -1)` loop of `sync_wait`: `interrupted`
      polls that return -1 and are retried, then the final reply decides. */
  function PollLoop(fd: int, timeout: int, interrupted: nat, final: PollReply): (w: Wait)
    ensures |w.log| == interrupted + 1
    ensures forall k :: 0 <= k < |w.log| ==> w.log[k] == Poll(fd, timeout)
    ensures final.Ready? && !ErrorReported(final.revents) ==> w.ret == 0
    ensures final.Ready? && ErrorReported(final.revents) ==> w.ret == -1
    ensures final.TimedOut? ==> w.ret == -1
    ensures final.PollError? ==> w.ret == final.ret
    decreases interrupted
  {
    if interrupted > 0 then
      var rest := PollLoop(fd, timeout, interrupted - 1, final);
      Wait(rest.ret, [Poll(fd, timeout)] + rest.log)
    else
      var ret :=
        match final
        case Ready(revents) => if ErrorReported(revents) then -1 else 0
        case TimedOut => -1
        case PollError(r) => r;
      Wait(ret, [Poll(fd, timeout)])
  }

  /** `sync_wait(fd, timeout)`: -1 without polling for a negative descriptor;
      otherwise 0 exactly when the fence became ready without an error bit,
      and a negative value in every other case. */
  function SyncWait(fd: int, timeout: int, script: PollScript): (w: Wait)
    ensures fd < 0 ==> w == Wait(-1, [])
    ensures fd >= 0 ==> |w.log| == script.interrupted + 1
    ensures fd >= 0 ==> forall k :: 0 <= k < |w.log| ==> w.log[k] == Poll(fd, timeout)
    ensures fd >= 0 ==> (w.ret == 0 <==> script.final.Ready? && !ErrorReported(script.final.revents))
    ensures w.ret <= 0
    ensures fd >= 0 && !script.final.PollError? ==> w.ret == 0 || w.ret == -1
  {
    if fd < 0 then Wait(-1, [])
    else PollLoop(fd, timeout, script.interrupted, script.final)
  }

  /** `v2d_lock_async(fenceFd)`: nothing for an absent fence (result 0);
      otherwise wait with the fixed timeout and close the fence whatever the
      wait returned. */
  function LockAsync(fenceFd: int, script: PollScript): (w: Wait)
    ensures fenceFd < 0 ==> w == Wait(0, [])
    ensures fenceFd >= 0 ==> w.ret == SyncWait(fenceFd, FenceTimeoutMs, script).ret
    ensures fenceFd >= 0 ==> |w.log| == script.interrupted + 2
    ensures fenceFd >= 0 ==> w.log[|w.log| - 1] == Close(fenceFd)
    ensures fenceFd >= 0 ==> forall k :: 0 <= k < |w.log| - 1 ==> w.log[k] == Poll(fenceFd, FenceTimeoutMs)
    ensures forall e <- w.log :: e == Poll(fenceFd, FenceTimeoutMs) || e == Close(fenceFd)
    ensures Closes(w.log) == if fenceFd >= 0 then [fenceFd] else []
  {
    if fenceFd >= 0 then
      var s := SyncWait(fenceFd, FenceTimeoutMs, script);
      ClosesOfCloseFree(s.log);
      ClosesAppend(s.log, [Close(fenceFd)]);
      Wait(s.ret, s.log + [Close(fenceFd)])
    else
      Wait(0, [])
  }

  /** A hang-up without error bits counts as success: only POLLERR and
      POLLNVAL turn a ready fence into a failure. */
  lemma HangUpIsSuccess(fd: int, interrupted: nat)
    requires fd >= 0
    ensures SyncWait(fd, FenceTimeoutMs, PollScript(interrupted, Ready(0x010))).ret == 0
    ensures SyncWait(fd, FenceTimeoutMs, PollScript(interrupted, Ready(PollIn | PollErr))).ret == -1
  {
    assert !ErrorReported(0x010);
    assert ErrorReported(PollIn | PollErr);
  }
}

=== FILE: job_queue.dfy ===
/**
  The job queue of lib/v2d.c: `V2D_BeginJob` creates an empty job and the
  three `V2D_Add*Task` calls append one task each to its tail-linked list,
  bounded at `MAX_TASK_LIST_LENGTH` tasks.

  The linked list with head and tail pointers is modelled by the sequence of
  its task records in list order, and the job handle (a pointer cast to an
  integer) by `Handle`, whose `Null` stands for the handle value 0.
*/
module JobQueue {
  import opened V2dTypes
  import opened TaskBuilder

  /** MAX_TASK_LIST_LENGTH: the most tasks one job may hold. */
  const MaxTaskListLength := 64

  /** The values of V2D_TASK_TYPE_E.  FILL and BLEND share the value 3. */
  const TaskKindNone := 0
  const TaskKindRotation := 1
  const TaskKindCsc := 2
  const TaskKindFill := 3
  const TaskKindBlend := 3

  /** V2D_JOB_S: the task count, the kind of the last task added (a marker
      nothing reads), and the tasks in list order. */
  datatype Job = Job(count: nat, currentTaskState: int, tasks: seq<Task>)

  /** The job invariant: the counter agrees with the list and respects the
      bound. */
  predicate Valid(j: Job)
  {
    j.count == |j.tasks| <= MaxTaskListLength
  }

  const EmptyJob := Job(0, TaskKindNone, [])

  datatype Handle = Null | Live(job: Job)

  /** SUCCESS and FAILURE. */
  datatype Status = Success | Failure

  /** What a call does to the caller: it returns a status and the (possibly
      updated) job handle, or the process exits with a code. */
  datatype Outcome = Returned(status: Status, handle: Handle) | Exited(code: int)

  /** `after` is `before` with `task` appended at the tail. */
  predicate Appended(before: Job, after: Job, kind: int, task: Task)
  {
    && after.tasks == before.tasks + [task]
    && after.count == before.count + 1
    && after.currentTaskState == kind
  }

  /** V2D_BeginJob.  `allocOk` is the outcome of the job allocation; a failed
      allocation is reported as FAILURE (the source leaves the caller's handle
      unwritten; the model hands back the null handle in its place). */
  function BeginJob(allocOk: bool): (r: Outcome)
    ensures r.Returned?
    ensures r.status == Success <==> allocOk
    ensures allocOk ==> r.handle.Live? && Valid(r.handle.job)
    ensures allocOk ==> r.handle.job.tasks == [] && r.handle.job.currentTaskState == TaskKindNone
    ensures !allocOk ==> r.handle == Null
  {
    if allocOk then Returned(Success, Live(EmptyJob)) else Returned(Failure, Null)
  }

  /** The part the three Add calls share: the null-handle check, the
      increment of `count` that is undone when it passes the bound, the kind
      marker, the node allocation (`nodeAllocOk`; on failure the process
      calls `exit(-1)`), and the append at the tail. */
  function Enqueue(h: Handle, kind: int, task: Task, nodeAllocOk: bool): (r: Outcome)
    ensures h.Null? ==> r == Returned(Failure, Null)
    ensures h.Live? && h.job.count >= MaxTaskListLength ==> r == Returned(Failure, h)
    ensures h.Live? && h.job.count < MaxTaskListLength && !nodeAllocOk ==> r == Exited(-1)
    ensures h.Live? && h.job.count < MaxTaskListLength && nodeAllocOk ==>
              r.Returned? && r.status == Success && r.handle.Live? && Appended(h.job, r.handle.job, kind, task)
    ensures h.Live? && Valid(h.job) && r.Returned? ==> r.handle.Live? && Valid(r.handle.job)
  {
    match h
    case Null => Returned(Failure, Null)
    case Live(job) =>
      var count := job.count + 1;
      if count > MaxTaskListLength then
        Returned(Failure, Live(job.(count := count - 1)))
      else if !nodeAllocOk then
        Exited(-1)
      else
        Returned(Success, Live(Job(count, kind, job.tasks + [task])))
  }

  /** V2D_AddFillTask. */
  function AddFillTask(h: Handle, dst: Option<Surface>, dstRect: Area, color: FillColor, nodeAllocOk: bool): (r: Outcome)
    ensures h.Null? ==> r == Returned(Failure, Null)
    ensures h.Live? && h.job.count >= MaxTaskListLength ==> r == Returned(Failure, h)
    ensures h.Live? && h.job.count < MaxTaskListLength && !nodeAllocOk ==> r == Exited(-1)
    ensures h.Live? && h.job.count < MaxTaskListLength && nodeAllocOk ==>
              r.Returned? && r.status == Success && r.handle.Live?
              && Appended(h.job, r.handle.job, TaskKindFill, FillTask(dst, dstRect, color))
    ensures h.Live? && Valid(h.job) && r.Returned? ==> r.handle.Live? && Valid(r.handle.job)
  {
    Enqueue(h, TaskKindFill, FillTask(dst, dstRect, color), nodeAllocOk)
  }

  /** V2D_AddBitblitTask.  Note the kind marker it records is TASK_NONE. */
  function AddBitblitTask(h: Handle, dst: Surface, dstRect: Area, src: Surface, srcRect: Area,
                          cscMode: Code, nodeAllocOk: bool): (r: Outcome)
    ensures h.Null? ==> r == Returned(Failure, Null)
    ensures h.Live? && h.job.count >= MaxTaskListLength ==> r == Returned(Failure, h)
    ensures h.Live? && h.job.count < MaxTaskListLength && !nodeAllocOk ==> r == Exited(-1)
    ensures h.Live? && h.job.count < MaxTaskListLength && nodeAllocOk ==>
              r.Returned? && r.status == Success && r.handle.Live?
              && Appended(h.job, r.handle.job, TaskKindNone, BlitTask(dst, dstRect, src, srcRect, cscMode))
    ensures h.Live? && Valid(h.job) && r.Returned? ==> r.handle.Live? && Valid(r.handle.job)
  {
    Enqueue(h, TaskKindNone, BlitTask(dst, dstRect, src, srcRect, cscMode), nodeAllocOk)
  }

  /** V2D_AddBlendTask. */
  function AddBlendTask(
    h: Handle,
    background: Option<Surface>, backgroundRect: Option<Area>,
    foreground: Option<Surface>, foregroundRect: Option<Area>,
    mask: Option<Surface>, maskRect: Option<Area>,
    dst: Option<Surface>, dstRect: Option<Area>,
    blendConf: Option<BlendConf>,
    foreRotate: Code, backRotate: Code,
    foreCsc: Code, backCsc: Code,
    palette: Option<Palette>,
    dither: Code,
    nodeAllocOk: bool): (r: Outcome)
    ensures h.Null? ==> r == Returned(Failure, Null)
    ensures h.Live? && h.job.count >= MaxTaskListLength ==> r == Returned(Failure, h)
    ensures h.Live? && h.job.count < MaxTaskListLength && !nodeAllocOk ==> r == Exited(-1)
    ensures h.Live? && h.job.count < MaxTaskListLength && nodeAllocOk ==>
              r.Returned? && r.status == Success && r.handle.Live?
              && Appended(h.job, r.handle.job, TaskKindBlend,
                          BlendTask(background, backgroundRect, foreground, foregroundRect, mask, maskRect,
                                    dst, dstRect, blendConf, foreRotate, backRotate, foreCsc, backCsc,
                                    palette, dither))
    ensures h.Live? && Valid(h.job) && r.Returned? ==> r.handle.Live? && Valid(r.handle.job)
  {
    Enqueue(h,
            TaskKindBlend,
            BlendTask(background, backgroundRect, foreground, foregroundRect, mask, maskRect,
                      dst, dstRect, blendConf, foreRotate, backRotate, foreCsc, backCsc, palette, dither),
            nodeAllocOk)
  }

  /** One Add call with its arguments, for reasoning about call sequences. */
  datatype AddRequest =
    | FillRequest(fillDst: Option<Surface>, fillRect: Area, color: FillColor)
    | BlitRequest(blitDst: Surface, blitDstRect: Area, src: Surface, srcRect: Area, cscMode: Code)
    | BlendRequest(
        background: Option<Surface>, backgroundRect: Option<Area>,
        foreground: Option<Surface>, foregroundRect: Option<Area>,
        mask: Option<Surface>, maskRect: Option<Area>,
        blendDst: Option<Surface>, blendDstRect: Option<Area>,
        blendConf: Option<BlendConf>,
        foreRotate: Code, backRotate: Code,
        foreCsc: Code, backCsc: Code,
        palette: Option<Palette>,
        dither: Code)

  /** The task record a request builds. */
  function Built(req: AddRequest): Task
  {
    match req
    case FillRequest(d, r, c) => FillTask(d, r, c)
    case BlitRequest(d, dr, s, sr, m) => BlitTask(d, dr, s, sr, m)
    case BlendRequest(bg, bgr, fg, fgr, mk, mkr, d, dr, bc, fr, br, fc, bcsc, pal, dth) =>
      BlendTask(bg, bgr, fg, fgr, mk, mkr, d, dr, bc, fr, br, fc, bcsc, pal, dth)
  }

  /** The records a sequence of requests builds, in call order. */
  function BuiltAll(reqs: seq<AddRequest>): (ts: seq<Task>)
    ensures |ts| == |reqs|
    ensures forall i :: 0 <= i < |reqs| ==> ts[i] == Built(reqs[i])
  {
    seq(|reqs|, i requires 0 <= i < |reqs| => Built(reqs[i]))
  }

  /** Issue one request with node allocation succeeding. */
  function Add(h: Handle, req: AddRequest): (r: Outcome)
    ensures r.Returned?
  {
    match req
    case FillRequest(d, rect, c) => AddFillTask(h, d, rect, c, true)
    case BlitRequest(d, dr, s, sr, m) => AddBitblitTask(h, d, dr, s, sr, m, true)
    case BlendRequest(bg, bgr, fg, fgr, mk, mkr, d, dr, bc, fr, br, fc, bcsc, pal, dth) =>
      AddBlendTask(h, bg, bgr, fg, fgr, mk, mkr, d, dr, bc, fr, br, fc, bcsc, pal, dth, true)
  }

  /** Issue requests in order on one handle, ignoring their statuses, as a
      caller that does not check them would. */
  function AddAll(h: Handle, reqs: seq<AddRequest>): Handle
    decreases |reqs|
  {
    if |reqs| == 0 then h
    else Add(AddAll(h, reqs[..|reqs| - 1]), reqs[|reqs| - 1]).handle
  }

  /** One request on a live valid job: below the bound it appends the built
      record; at the bound it fails and leaves the job as it was. */
  lemma AddStep(j: Job, req: AddRequest)
    requires Valid(j)
    ensures |j.tasks| < MaxTaskListLength ==>
              Add(Live(j), req).status == Success && Add(Live(j), req).handle.Live?
              && Add(Live(j), req).handle.job.tasks == j.tasks + [Built(req)]
              && Valid(Add(Live(j), req).handle.job)
    ensures |j.tasks| >= MaxTaskListLength ==> Add(Live(j), req) == Returned(Failure, Live(j))
  {
  }

  /** Any sequence of Add calls on a fresh job keeps the invariant, so the
      count never exceeds 64, and the job holds exactly the records of the
      first 64 requests, in call order: requests past the bound are dropped. */
  lemma {:induction false} AddAllKeepsFirst64(reqs: seq<AddRequest>)
    ensures AddAll(Live(EmptyJob), reqs).Live?
    ensures Valid(AddAll(Live(EmptyJob), reqs).job)
    ensures var n := if |reqs| < MaxTaskListLength then |reqs| else MaxTaskListLength;
            AddAll(Live(EmptyJob), reqs).job.tasks == BuiltAll(reqs[..n])
    decreases |reqs|
  {
    if |reqs| > 0 {
      var init := reqs[..|reqs| - 1];
      AddAllKeepsFirst64(init);
      if |init| < MaxTaskListLength {
        assert init[..|init|] == init;
        KeepsBelowBound(reqs);
        assert reqs[..|reqs|] == reqs;
      } else {
        KeepsAtBound(reqs);
        assert reqs[..MaxTaskListLength] == init[..MaxTaskListLength];
      }
    }
  }

  /** Below the bound one more request appends its record. */
  lemma KeepsBelowBound(reqs: seq<AddRequest>)
    requires 0 < |reqs| <= MaxTaskListLength
    requires AddAll(Live(EmptyJob), reqs[..|reqs| - 1]).Live?
    requires Valid(AddAll(Live(EmptyJob), reqs[..|reqs| - 1]).job)
    requires AddAll(Live(EmptyJob), reqs[..|reqs| - 1]).job.tasks == BuiltAll(reqs[..|reqs| - 1])
    ensures AddAll(Live(EmptyJob), reqs).Live? && Valid(AddAll(Live(EmptyJob), reqs).job)
    ensures AddAll(Live(EmptyJob), reqs).job.tasks == BuiltAll(reqs)
  {
    BuiltAllLast(reqs);
    AddStep(AddAll(Live(EmptyJob), reqs[..|reqs| - 1]).job, reqs[|reqs| - 1]);
  }

  /** At the bound one more request changes nothing. */
  lemma KeepsAtBound(reqs: seq<AddRequest>)
    requires |reqs| > MaxTaskListLength
    requires AddAll(Live(EmptyJob), reqs[..|reqs| - 1]).Live?
    requires Valid(AddAll(Live(EmptyJob), reqs[..|reqs| - 1]).job)
    requires AddAll(Live(EmptyJob), reqs[..|reqs| - 1]).job.tasks == BuiltAll(reqs[..MaxTaskListLength])
    ensures AddAll(Live(EmptyJob), reqs) == AddAll(Live(EmptyJob), reqs[..|reqs| - 1])
  {
    AddStep(AddAll(Live(EmptyJob), reqs[..|reqs| - 1]).job, reqs[|reqs| - 1]);
  }

  /** The records of a non-empty sequence of requests end with the record
      of its last request. */
  lemma BuiltAllLast(reqs: seq<AddRequest>)
    requires |reqs| > 0
    ensures BuiltAll(reqs) == BuiltAll(reqs[..|reqs| - 1]) + [Built(reqs[|reqs| - 1])]
  {
  }

  /** The 65th Add on a job built from 64 requests fails and leaves all 64
      tasks in place. */
  lemma SixtyFifthAddFails(reqs: seq<AddRequest>, extra: AddRequest)
    requires |reqs| == MaxTaskListLength
    ensures Add(AddAll(Live(EmptyJob), reqs), extra).status == Failure
    ensures Add(AddAll(Live(EmptyJob), reqs), extra).handle == AddAll(Live(EmptyJob), reqs)
    ensures AddAll(Live(EmptyJob), reqs).Live?
    ensures AddAll(Live(EmptyJob), reqs).job.count == MaxTaskListLength
  {
    AddAllKeepsFirst64(reqs);
    AddStep(AddAll(Live(EmptyJob), reqs).job, extra);
  }

  /** The kind marker cannot tell a fill from a blend: both record 3. */
  lemma KindMarkerConflatesFillAndBlend(j: Job, fill: AddRequest, blend: AddRequest)
    requires Valid(j) && |j.tasks| < MaxTaskListLength
    requires fill.FillRequest? && blend.BlendRequest?
    ensures Add(Live(j), fill).handle.job.currentTaskState == Add(Live(j), blend).handle.job.currentTaskState
  {
  }
}

=== FILE: properties.dfy ===
/**
  Properties of a whole `V2D_EndJob` call and of successive calls: the
  records reach the device in list order, a rejected write ends submission,
  the fences of an accepted job are drained, and the device descriptor is
  opened once and then reused.
*/
module JobProperties {
  import opened V2dTypes
  import opened Syscalls
  import opened FenceSync
  import opened JobQueue
  import opened Submission

  /** The log of `V2D_EndJob` on a live handle, split into its parts. */
  lemma EndJobLogShape(h: Handle, dev: Device, env: Env)
    requires h.Live? && Valid(h.job) && DeviceAvailable(dev, env)
    ensures var fd := SubmitFd(dev, env);
            var pre: seq<Event> := if dev.gFd >= 0 then [] else [OpenDevice(DevName, env.openResult)];
            EndJob(h, dev, env).log
              == pre + SubmitJob(fd, h.job.tasks, env).log + (FreeList(h.job.tasks, 0) + [FreeJob])
  {
    var sub := SubmitJob(SubmitFd(dev, env), h.job.tasks, env).log;
    var pre: seq<Event> := if dev.gFd >= 0 then [] else [OpenDevice(DevName, env.openResult)];
    var post := FreeList(h.job.tasks, 0) + [FreeJob];
    var s := OpenAndSubmit(h.job.tasks, dev, env);
    if dev.gFd >= 0 {
      assert s.log == sub;
    } else {
      assert s.log == [OpenDevice(DevName, env.openResult)] + sub;
    }
    assert EndJob(h, dev, env).log == s.log + FreeList(h.job.tasks, 0) + [FreeJob];
    assert s.log + FreeList(h.job.tasks, 0) + [FreeJob] == pre + sub + post;
  }

  /** Events that are no system call on a descriptor, placed around a log,
      leave its writes as they are. */
  lemma WritesAround(pre: seq<Event>, mid: seq<Event>, post: seq<Event>)
    requires forall e <- pre :: !IsIo(e)
    requires forall e <- post :: !IsIo(e)
    ensures Writes(pre + mid + post) == Writes(mid)
  {
    WritesAppend(pre + mid, post);
    WritesAppend(pre, mid);
    WritesOfWriteFree(pre);
    WritesOfWriteFree(post);
  }

  /** The same for closes. */
  lemma ClosesAround(pre: seq<Event>, mid: seq<Event>, post: seq<Event>)
    requires forall e <- pre :: !IsIo(e)
    requires forall e <- post :: !IsIo(e)
    ensures Closes(pre + mid + post) == Closes(mid)
  {
    ClosesAppend(pre + mid, post);
    ClosesAppend(pre, mid);
    ClosesOfCloseFree(pre);
    ClosesOfCloseFree(post);
  }

  /** The open before submission and the frees after it. */
  lemma AroundSubmission(h: Handle, dev: Device, env: Env)
    requires h.Live? && Valid(h.job) && DeviceAvailable(dev, env)
    ensures var pre: seq<Event> := if dev.gFd >= 0 then [] else [OpenDevice(DevName, env.openResult)];
            && (forall e <- pre :: !IsIo(e))
            && (forall e <- FreeList(h.job.tasks, 0) + [FreeJob] :: !IsIo(e))
  {
  }

  /** `V2D_EndJob` reports what `V2dSubmitJob` returned. */
  lemma EndJobRet(h: Handle, dev: Device, env: Env)
    requires h.Live? && Valid(h.job) && DeviceAvailable(dev, env)
    ensures EndJob(h, dev, env).ret == SubmitJob(SubmitFd(dev, env), h.job.tasks, env).ret
  {
  }

  /** The records `V2D_EndJob` writes are those `V2dSubmitJob` writes. */
  lemma EndJobWrites(h: Handle, dev: Device, env: Env)
    requires h.Live? && Valid(h.job) && DeviceAvailable(dev, env)
    ensures Writes(EndJob(h, dev, env).log) == Writes(SubmitJob(SubmitFd(dev, env), h.job.tasks, env).log)
  {
    var s := SubmitJob(SubmitFd(dev, env), h.job.tasks, env);
    var pre: seq<Event> := if dev.gFd >= 0 then [] else [OpenDevice(DevName, env.openResult)];
    EndJobLogShape(h, dev, env);
    AroundSubmission(h, dev, env);
    WritesAround(pre, s.log, FreeList(h.job.tasks, 0) + [FreeJob]);
  }

  /** The descriptors `V2D_EndJob` closes are those `V2dSubmitJob` closes. */
  lemma EndJobCloses(h: Handle, dev: Device, env: Env)
    requires h.Live? && Valid(h.job) && DeviceAvailable(dev, env)
    ensures Closes(EndJob(h, dev, env).log) == Closes(SubmitJob(SubmitFd(dev, env), h.job.tasks, env).log)
  {
    var s := SubmitJob(SubmitFd(dev, env), h.job.tasks, env);
    var pre: seq<Event> := if dev.gFd >= 0 then [] else [OpenDevice(DevName, env.openResult)];
    EndJobLogShape(h, dev, env);
    AroundSubmission(h, dev, env);
    ClosesAround(pre, s.log, FreeList(h.job.tasks, 0) + [FreeJob]);
  }

  /** Every poll of `V2D_EndJob` is one of `V2dSubmitJob`. */
  lemma EndJobPolls(h: Handle, dev: Device, env: Env)
    requires h.Live? && Valid(h.job) && DeviceAvailable(dev, env)
    ensures forall e <- EndJob(h, dev, env).log :: e.Poll? ==> e in SubmitJob(SubmitFd(dev, env), h.job.tasks, env).log
  {
    EndJobLogShape(h, dev, env);
    AroundSubmission(h, dev, env);
  }

  /** The writes of `V2dSubmitJob`: the records in list order with both fence
      slots reset, up to and including the first short write; after a short
      write nothing is polled or closed. */
  lemma SubmitWrites(fd: int, tasks: seq<Task>, env: Env)
    ensures var s := SubmitJob(fd, tasks, env);
            var n := |tasks|;
            var k := FirstShort(env.writeReply, 0, n);
            var w := Writes(s.log);
            && |w| == (if k < n then k + 1 else n)
            && (forall j :: 0 <= j < |w| ==>
                  w[j].param == tasks[j].param && w[j].acquireFence == -1 && w[j].completeFence == -1)
            && (k < n ==> Closes(s.log) == [] && forall e <- s.log :: !e.Poll?)
  {
    var wl := WriteLoop(fd, tasks, env.writeReply, 0);
    var s := SubmitJob(fd, tasks, env);
    WritesOfWriteLog(wl.log);
    assert Writes(s.log) == Writes(wl.log) by {
      if wl.complete {
        var d := DrainLoop(wl.fenced, env.pollScript, 0, Unspecified);
        assert s.log == wl.log + d.log;
        WritesAppend(wl.log, d.log);
        WritesOfWriteFree(d.log);
      } else {
        assert s.log == wl.log;
      }
    }
    if !wl.complete {
      assert s.log == wl.log;
      ClosesOfCloseFree(wl.log);
    }
  }

  /** The device receives the records in list order, each with both fence
      slots reset to -1, up to and including the first write the kernel does
      not accept; the call fails exactly when there is such a write, and then
      no fence is waited on or closed. */
  lemma EndJobWritesInListOrder(h: Handle, dev: Device, env: Env)
    requires h.Live? && Valid(h.job) && DeviceAvailable(dev, env)
    ensures var r := EndJob(h, dev, env);
            var n := |h.job.tasks|;
            var k := FirstShort(env.writeReply, 0, n);
            var w := Writes(r.log);
            && |w| == (if k < n then k + 1 else n)
            && (forall j :: 0 <= j < |w| ==>
                  w[j].param == h.job.tasks[j].param && w[j].acquireFence == -1 && w[j].completeFence == -1)
            && (r.ret == Failed <==> k < n)
            && (k < n ==> Closes(r.log) == [] && forall e <- r.log :: !e.Poll?)
  {
    EndJobRet(h, dev, env);
    EndJobWrites(h, dev, env);
    EndJobCloses(h, dev, env);
    EndJobPolls(h, dev, env);
    SubmitWrites(SubmitFd(dev, env), h.job.tasks, env);
  }

  /** The log of a fully accepted `V2dSubmitJob`: the write loop, then the
      drain of the filled records. */
  lemma AcceptedSubmission(fd: int, tasks: seq<Task>, env: Env)
    requires forall j :: 0 <= j < |tasks| ==> env.writeReply(j).Accepted?
    ensures var wl := WriteLoop(fd, tasks, env.writeReply, 0);
            var d := DrainLoop(FilledAll(tasks, env.writeReply), env.pollScript, 0, Unspecified);
            && (forall e <- wl.log :: e.Write?)
            && SubmitJob(fd, tasks, env) == Drain(d.ret, wl.log + d.log)
  {
    assert FirstShort(env.writeReply, 0, |tasks|) == |tasks|;
    assert FilledAll(tasks, env.writeReply)[0..] == FilledAll(tasks, env.writeReply);
  }

  /** A fully accepted submission closes exactly the expected fences. */
  lemma SubmitCloses(fd: int, tasks: seq<Task>, env: Env)
    requires forall j :: 0 <= j < |tasks| ==> env.writeReply(j).Accepted?
    ensures Closes(SubmitJob(fd, tasks, env).log) == ExpectedCloses(FilledAll(tasks, env.writeReply), 0)
  {
    var wl := WriteLoop(fd, tasks, env.writeReply, 0);
    var fenced := FilledAll(tasks, env.writeReply);
    var d := DrainLoop(fenced, env.pollScript, 0, Unspecified);
    AcceptedSubmission(fd, tasks, env);
    ClosesAppend(wl.log, d.log);
    ClosesOfCloseFree(wl.log);
    DrainCloses(fenced, env.pollScript, 0, Unspecified);
  }

  /** A fully accepted submission polls only completion fences, with the
      fixed timeout. */
  lemma SubmitPolls(fd: int, tasks: seq<Task>, env: Env)
    requires forall j :: 0 <= j < |tasks| ==> env.writeReply(j).Accepted?
    ensures var fenced := FilledAll(tasks, env.writeReply);
            forall e <- SubmitJob(fd, tasks, env).log :: e.Poll? ==>
              e.timeout == FenceTimeoutMs && exists j :: 0 <= j < |fenced| && fenced[j].completeFence == e.fd >= 0
  {
    var fenced := FilledAll(tasks, env.writeReply);
    AcceptedSubmission(fd, tasks, env);
    DrainPolls(fenced, env.pollScript, 0, Unspecified);
  }

  /** A fully accepted submission waits on every completion fence the kernel
      returned that is >= 0, with the fixed timeout, and closes it after the
      wait. */
  lemma SubmitWaitsEveryFence(fd: int, tasks: seq<Task>, env: Env)
    requires forall j :: 0 <= j < |tasks| ==> env.writeReply(j).Accepted?
    ensures forall j :: 0 <= j < |tasks| && env.writeReply(j).completeFence >= 0 ==>
              PolledThenClosed(SubmitJob(fd, tasks, env).log, env.writeReply(j).completeFence)
  {
    var wl := WriteLoop(fd, tasks, env.writeReply, 0);
    var fenced := FilledAll(tasks, env.writeReply);
    var d := DrainLoop(fenced, env.pollScript, 0, Unspecified);
    AcceptedSubmission(fd, tasks, env);
    DrainWaitsEveryFence(fenced, env.pollScript, 0, Unspecified);
    forall j | 0 <= j < |tasks| && env.writeReply(j).completeFence >= 0
      ensures PolledThenClosed(wl.log + d.log, env.writeReply(j).completeFence)
    {
      assert fenced[j].completeFence == env.writeReply(j).completeFence;
      PolledThenClosedAppend(wl.log, d.log, env.writeReply(j).completeFence);
    }
  }

  /** A fully accepted, non-empty submission returns the wait result of the
      last task. */
  lemma SubmitRet(fd: int, tasks: seq<Task>, env: Env)
    requires forall j :: 0 <= j < |tasks| ==> env.writeReply(j).Accepted?
    requires |tasks| > 0
    ensures var last := FilledAll(tasks, env.writeReply)[|tasks| - 1];
            SubmitJob(fd, tasks, env).ret == WaitCode(LockAsync(last.completeFence, env.pollScript(|tasks| - 1)).ret)
  {
    AcceptedSubmission(fd, tasks, env);
  }

  /** When the kernel accepts every record, the fences closed are exactly
      the expected ones in list order: each completion fence that is >= 0
      and each acquire fence that is > 0. */
  lemma EndJobClosesFences(h: Handle, dev: Device, env: Env)
    requires h.Live? && Valid(h.job) && DeviceAvailable(dev, env)
    requires forall j :: 0 <= j < |h.job.tasks| ==> env.writeReply(j).Accepted?
    ensures var r := EndJob(h, dev, env);
            var n := |h.job.tasks|;
            && Closes(r.log) == ExpectedCloses(FilledAll(h.job.tasks, env.writeReply), 0)
            && (forall j :: 0 <= j < n && env.writeReply(j).completeFence >= 0 ==>
                  Close(env.writeReply(j).completeFence) in r.log)
            && (forall j :: 0 <= j < n && env.writeReply(j).acquireFence > 0 ==>
                  Close(env.writeReply(j).acquireFence) in r.log)
  {
    var tasks := h.job.tasks;
    var fenced := FilledAll(tasks, env.writeReply);
    EndJobCloses(h, dev, env);
    SubmitCloses(SubmitFd(dev, env), tasks, env);
    forall j | 0 <= j < |tasks|
      ensures fenced[j].completeFence == env.writeReply(j).completeFence
      ensures fenced[j].acquireFence == env.writeReply(j).acquireFence
    {
    }
  }

  /** When the kernel accepts every record, every poll waits on a completion
      fence of the job with the fixed timeout. */
  lemma EndJobPollsFences(h: Handle, dev: Device, env: Env)
    requires h.Live? && Valid(h.job) && DeviceAvailable(dev, env)
    requires forall j :: 0 <= j < |h.job.tasks| ==> env.writeReply(j).Accepted?
    ensures forall e <- EndJob(h, dev, env).log :: e.Poll? ==>
              e.timeout == FenceTimeoutMs
              && exists j :: 0 <= j < |h.job.tasks| && env.writeReply(j).completeFence == e.fd >= 0
  {
    var tasks := h.job.tasks;
    var fenced := FilledAll(tasks, env.writeReply);
    EndJobPolls(h, dev, env);
    SubmitPolls(SubmitFd(dev, env), tasks, env);
    forall j | 0 <= j < |tasks|
      ensures fenced[j].completeFence == env.writeReply(j).completeFence
    {
    }
  }

  /** When the kernel accepts every record, every completion fence it
      returned that is >= 0 is waited on with the fixed timeout and closed
      after that wait. */
  lemma EndJobWaitsEveryFence(h: Handle, dev: Device, env: Env)
    requires h.Live? && Valid(h.job) && DeviceAvailable(dev, env)
    requires forall j :: 0 <= j < |h.job.tasks| ==> env.writeReply(j).Accepted?
    ensures forall j :: 0 <= j < |h.job.tasks| && env.writeReply(j).completeFence >= 0 ==>
              PolledThenClosed(EndJob(h, dev, env).log, env.writeReply(j).completeFence)
  {
    var s := SubmitJob(SubmitFd(dev, env), h.job.tasks, env);
    var pre: seq<Event> := if dev.gFd >= 0 then [] else [OpenDevice(DevName, env.openResult)];
    var post := FreeList(h.job.tasks, 0) + [FreeJob];
    EndJobLogShape(h, dev, env);
    SubmitWaitsEveryFence(SubmitFd(dev, env), h.job.tasks, env);
    forall j | 0 <= j < |h.job.tasks| && env.writeReply(j).completeFence >= 0
      ensures PolledThenClosed(pre + s.log + post, env.writeReply(j).completeFence)
    {
      PolledThenClosedAppend(pre, s.log, env.writeReply(j).completeFence);
      PolledThenClosedAppend(pre + s.log, post, env.writeReply(j).completeFence);
    }
  }

  /** When the kernel accepts every record, the result is the wait result of
      the LAST task (so an earlier task's failed wait is not reported), or
      unspecified for an empty job. */
  lemma EndJobReportsLastWait(h: Handle, dev: Device, env: Env)
    requires h.Live? && Valid(h.job) && DeviceAvailable(dev, env)
    requires forall j :: 0 <= j < |h.job.tasks| ==> env.writeReply(j).Accepted?
    ensures var r := EndJob(h, dev, env);
            var n := |h.job.tasks|;
            && (n == 0 ==> r.ret == Unspecified)
            && (n > 0 ==> r.ret == WaitCode(LockAsync(env.writeReply(n - 1).completeFence, env.pollScript(n - 1)).ret))
  {
    var tasks := h.job.tasks;
    EndJobRet(h, dev, env);
    if |tasks| > 0 {
      SubmitRet(SubmitFd(dev, env), tasks, env);
    }
  }

  /** From the calls to the device, end to end: a caller that issues any
      sequence of Add requests on a fresh job and then ends it, with every
      write accepted, sends the records of the first 64 requests in call
      order, each with both fence slots reset. */
  lemma CallOrderIsWriteOrder(reqs: seq<AddRequest>, dev: Device, env: Env)
    requires DeviceAvailable(dev, env)
    requires forall j :: 0 <= j < |reqs| && j < MaxTaskListLength ==> env.writeReply(j).Accepted?
    ensures AddAll(Live(EmptyJob), reqs).Live? && Valid(AddAll(Live(EmptyJob), reqs).job)
    ensures var w := Writes(EndJob(AddAll(Live(EmptyJob), reqs), dev, env).log);
            && |w| == (if |reqs| < MaxTaskListLength then |reqs| else MaxTaskListLength)
            && forall j :: 0 <= j < |w| ==> w[j] == AsWritten(Built(reqs[j]))
  {
    var n := if |reqs| < MaxTaskListLength then |reqs| else MaxTaskListLength;
    AddAllKeepsFirst64(reqs);
    BuiltRecordsWritten(AddAll(Live(EmptyJob), reqs), reqs[..n], dev, env);
  }

  /** The same for a job already known to hold the records of `reqs`. */
  lemma BuiltRecordsWritten(h: Handle, reqs: seq<AddRequest>, dev: Device, env: Env)
    requires h.Live? && Valid(h.job) && DeviceAvailable(dev, env)
    requires h.job.tasks == BuiltAll(reqs)
    requires forall j :: 0 <= j < |reqs| ==> env.writeReply(j).Accepted?
    ensures var w := Writes(EndJob(h, dev, env).log);
            |w| == |reqs| && forall j :: 0 <= j < |w| ==> w[j] == AsWritten(Built(reqs[j]))
  {
    var w := Writes(EndJob(h, dev, env).log);
    assert FirstShort(env.writeReply, 0, |reqs|) == |reqs|;
    EndJobWritesInListOrder(h, dev, env);
    forall j | 0 <= j < |w|
      ensures w[j] == AsWritten(Built(reqs[j]))
    {
      assert w[j].param == h.job.tasks[j].param && w[j].acquireFence == -1 && w[j].completeFence == -1;
    }
  }

  /** What the caller sees as an `int`, for any nonzero FAILURE value: a
      rejected write yields FAILURE; a fully accepted non-empty job yields
      the last wait's result; so a zero result means every record was
      accepted.  The converse fails when FAILURE equals a wait result (see
      `Scenarios.FailureCanLookLikeTimeout`). */
  lemma EndJobReturnValue(h: Handle, dev: Device, env: Env, failure: int, unassigned: int)
    requires h.Live? && Valid(h.job) && DeviceAvailable(dev, env)
    requires failure != 0
    ensures var v := ReturnValue(EndJob(h, dev, env).ret, failure, unassigned);
            var n := |h.job.tasks|;
            var k := FirstShort(env.writeReply, 0, n);
            && (k < n ==> v == failure)
            && (k == n && n > 0 ==> v == LockAsync(env.writeReply(n - 1).completeFence, env.pollScript(n - 1)).ret)
            && (v == 0 && n > 0 ==> k == n)
  {
    var n := |h.job.tasks|;
    EndJobWritesInListOrder(h, dev, env);
    if FirstShort(env.writeReply, 0, n) == n {
      EndJobReportsLastWait(h, dev, env);
    }
  }

  /** Across successive calls the device is opened at most once: after a
      successful open, a later call submits on the same descriptor without
      opening again; after a failed open, `gFd` is back at -1 and the next
      call tries again. */
  lemma DeviceStateAcrossJobs(h1: Handle, h2: Handle, env1: Env, env2: Env)
    requires h1.Live? && Valid(h1.job) && h2.Live? && Valid(h2.job)
    ensures var r1 := EndJob(h1, Unopened, env1);
            var r2 := EndJob(h2, r1.device, env2);
            && (env1.openResult >= 0 ==>
                  && r1.device == Device(env1.openResult)
                  && r2.device == r1.device
                  && (forall e <- r2.log :: !e.OpenDevice?)
                  && (forall e <- r2.log :: e.Write? ==> e.fd == env1.openResult))
            && (env1.openResult < 0 ==>
                  r1.ret == Failed && r2.log[0] == OpenDevice(DevName, env2.openResult))
  {
    var r1 := EndJob(h1, Unopened, env1);
    EndJobOpensLazily(h1, Unopened, env1);
    EndJobOpensLazily(h2, r1.device, env2);
  }
}

=== FILE: scenarios.dfy ===
/**
  Whole jobs as the test program issues them, with the kernel's replies
  fixed: a single fill, a single blit, the simple-case blend, two blits in
  one job, and the two submission behaviours worth seeing on a small job
  (the last wait decides the result; a rejected write leaks the fences of
  the records written before it).
*/
module Scenarios {
  import opened V2dTypes
  import opened Syscalls
  import opened FenceSync
  import opened TaskBuilder
  import opened JobQueue
  import opened Submission
  import JobProperties

  const Rgba8888: Code := Named("V2D_COLOR_FORMAT_RGBA8888")

  /** A 320x240 RGBA8888 buffer on dma-buf descriptor `fd`, as the tests
      configure their source and destination surfaces. */
  function TestSurface(fd: int): Surface
  {
    Surface(false, fd, 0, 320, 240, 320 * 4, Rgba8888, ZeroSolidColor)
  }

  /** A kernel that opens the device as `devFd`, accepts every record
      without an acquire fence and with completion fence `fence`, and
      signals each fence on the first poll. */
  function QuietKernel(devFd: int, fence: int): Env
  {
    Env(devFd, _ => Accepted(-1, fence), _ => PollScript(0, Ready(PollIn)))
  }

  /** The fill test: one fill of the rectangle (32, 32, 210, 180) with the
      colour 0x00ffcc66 on a fresh job and an unopened device.  The device
      is opened, the record is written once with fence slots -1, its
      completion fence is polled once with the 3000 ms timeout and closed,
      the node and the job are freed, and the call reports 0. */
  lemma FillTestRun(outFd: int, devFd: nat, fence: nat)
    ensures var h := BeginJob(true).handle;
            var color := FillColor(Rgba8888, 0x00ffcc66);
            var rect := Area(32, 32, 210, 180);
            var added := AddFillTask(h, Some(TestSurface(outFd)), rect, color, true);
            && added.Returned? && added.status == Success && added.handle.Live?
            && EndJob(added.handle, Unopened, QuietKernel(devFd, fence))
               == EndResult(WaitCode(0), Device(devFd),
                            [ OpenDevice(DevName, devFd),
                              Write(devFd, AsWritten(FillTask(Some(TestSurface(outFd)), rect, color))),
                              Poll(fence, FenceTimeoutMs), Close(fence),
                              FreeTask(0), FreeJob ])
  {
    var color := FillColor(Rgba8888, 0x00ffcc66);
    var rect := Area(32, 32, 210, 180);
    FillOnFreshJob(Some(TestSurface(outFd)), rect, color);
    QuietOneRecordJob(FillTask(Some(TestSurface(outFd)), rect, color), TaskKindFill, devFd, fence);
  }

  /** A fill on a fresh job succeeds and leaves a job of that one record,
      marked as a fill. */
  lemma FillOnFreshJob(dst: Option<Surface>, rect: Area, color: FillColor)
    ensures AddFillTask(BeginJob(true).handle, dst, rect, color, true)
            == Returned(Success, Live(Job(1, TaskKindFill, [FillTask(dst, rect, color)])))
  {
    assert BeginJob(true).handle == Live(EmptyJob);
  }

  /** A blit on a fresh job succeeds and leaves a job of that one record,
      marked TASK_NONE. */
  lemma BlitOnFreshJob(dst: Surface, dstRect: Area, src: Surface, srcRect: Area, cscMode: Code)
    ensures AddBitblitTask(BeginJob(true).handle, dst, dstRect, src, srcRect, cscMode, true)
            == Returned(Success, Live(Job(1, TaskKindNone, [BlitTask(dst, dstRect, src, srcRect, cscMode)])))
  {
    assert BeginJob(true).handle == Live(EmptyJob);
  }

  /** A one-record job under the quiet kernel: one write with fence slots
      -1, one wait on the completion fence with the fixed timeout, its
      close, and result 0. */
  lemma QuietSubmitOne(devFd: nat, fence: nat, t: Task)
    ensures SubmitJob(devFd, [t], QuietKernel(devFd, fence))
            == Drain(WaitCode(0), [Write(devFd, AsWritten(t)), Poll(fence, FenceTimeoutMs), Close(fence)])
  {
    var env := QuietKernel(devFd, fence);
    var wl := WriteLoop(devFd, [t], env.writeReply, 0);
    assert wl.log == [Write(devFd, AsWritten(t))];
    assert wl.fenced == [Filled(AsWritten(t), Accepted(-1, fence))];
    var lock := LockAsync(fence, env.pollScript(0));
    assert lock == Wait(0, [Poll(fence, FenceTimeoutMs), Close(fence)]);
    assert DrainLoop(wl.fenced, env.pollScript, 0, Unspecified) == Drain(WaitCode(0), lock.log);
  }

  /** `V2D_EndJob` on a one-record job, an unopened device and the quiet
      kernel: open, the write, the wait and close of its completion fence,
      the two frees, and result 0. */
  lemma QuietOneRecordJob(t: Task, kind: int, devFd: nat, fence: nat)
    ensures EndJob(Live(Job(1, kind, [t])), Unopened, QuietKernel(devFd, fence))
            == EndResult(WaitCode(0), Device(devFd),
                         [ OpenDevice(DevName, devFd), Write(devFd, AsWritten(t)),
                           Poll(fence, FenceTimeoutMs), Close(fence), FreeTask(0), FreeJob ])
  {
    var env := QuietKernel(devFd, fence);
    assert env.openResult == devFd;
    var events := [Write(devFd, AsWritten(t)), Poll(fence, FenceTimeoutMs), Close(fence)];
    QuietSubmitOne(devFd, fence, t);
    assert SubmitJob(env.openResult, [t], env) == Drain(WaitCode(0), events);
    EndJobOneRecord(t, kind, env);
    assert [OpenDevice(DevName, devFd)] + events + [FreeTask(0), FreeJob]
        == [OpenDevice(DevName, devFd), events[0], events[1], events[2], FreeTask(0), FreeJob];
  }

  /** `V2D_EndJob` on a one-record job and an unopened device whose open
      succeeds: the open, the submission, the two frees. */
  lemma EndJobOneRecord(t: Task, kind: int, env: Env)
    requires env.openResult >= 0
    ensures var s := SubmitJob(env.openResult, [t], env);
            EndJob(Live(Job(1, kind, [t])), Unopened, env)
            == EndResult(s.ret, Device(env.openResult), [OpenDevice(DevName, env.openResult)] + s.log + [FreeTask(0), FreeJob])
  {
    var h := Live(Job(1, kind, [t]));
    JobProperties.EndJobLogShape(h, Unopened, env);
    JobProperties.EndJobRet(h, Unopened, env);
    assert FreeList([t], 0) == [FreeTask(0)];
  }

  /** The blit test's source surface.  The test sets the flag, descriptor,
      offset, geometry and format of `stSrc` but never clears the structure
      (the `memset` before them clears `stDst` instead), so its solid colour
      is whatever `leftover` the stack held. */
  function BlitTestSource(inFd: int, leftover: SolidColor): (s: Surface)
    ensures s.solidColor == leftover
    ensures s.(solidColor := ZeroSolidColor) == TestSurface(inFd)
  {
    TestSurface(inFd).(solidColor := leftover)
  }

  /** The record the blit test builds: one blit of the source rectangle
      (53, 37, 200, 180) into the destination rectangle (64, 32, 200, 180)
      with conversion mode V2D_CSC_MODE_BUTT. */
  function BlitTestRecord(inFd: int, outFd: int, leftover: SolidColor): Task
  {
    BlitTask(TestSurface(outFd), Area(64, 32, 200, 180), BlitTestSource(inFd, leftover), Area(53, 37, 200, 180),
             CscModeButt)
  }

  /** The job the blit test builds: that blit on a fresh job. */
  function BlitTestJob(inFd: int, outFd: int, leftover: SolidColor): Handle
  {
    AddBitblitTask(BeginJob(true).handle, TestSurface(outFd), Area(64, 32, 200, 180),
                   BlitTestSource(inFd, leftover), Area(53, 37, 200, 180), CscModeButt, true).handle
  }

  /** The blit test as written.  The job holds the one record; the device
      is opened, the record is written with fence slots -1, its completion
      fence is waited on and closed, and the call reports 0.  The record
      carries the source, leftover solid colour included, as layer 0 and
      the destination with their rectangles; the conversion-mode argument
      does not reach it, and its l0_csc is V2D_CSC_MODE_BUTT whatever is
      passed. */
  lemma BlitTestRun(inFd: int, outFd: int, devFd: nat, fence: nat, leftover: SolidColor)
    ensures BlitTestJob(inFd, outFd, leftover) == Live(Job(1, TaskKindNone, [BlitTestRecord(inFd, outFd, leftover)]))
    ensures EndJob(BlitTestJob(inFd, outFd, leftover), Unopened, QuietKernel(devFd, fence))
            == EndResult(WaitCode(0), Device(devFd),
                         [ OpenDevice(DevName, devFd), Write(devFd, AsWritten(BlitTestRecord(inFd, outFd, leftover))),
                           Poll(fence, FenceTimeoutMs), Close(fence), FreeTask(0), FreeJob ])
    ensures var src := BlitTestSource(inFd, leftover);
            var p := BlitTestRecord(inFd, outFd, leftover).param;
            && p == BlitTask(TestSurface(outFd), Area(64, 32, 200, 180), src, Area(53, 37, 200, 180), ZeroCode).param
            && p.layer0 == src && p.l0Rect == Area(53, 37, 200, 180)
            && p.dst == TestSurface(outFd) && p.dstRect == Area(64, 32, 200, 180)
  {
    var src := BlitTestSource(inFd, leftover);
    var record := BlitTestRecord(inFd, outFd, leftover);
    BlitIgnoresCscMode(TestSurface(outFd), Area(64, 32, 200, 180), src, Area(53, 37, 200, 180), CscModeButt, ZeroCode);
    BlitOnFreshJob(TestSurface(outFd), Area(64, 32, 200, 180), src, Area(53, 37, 200, 180), CscModeButt);
    QuietOneRecordJob(record, TaskKindNone, devFd, fence);
  }

  /** The discrepancy: with a stale enabled solid colour on the stack, the
      record the test writes has that solid colour enabled on layer 0, so
      layer 0 is not the input surface the test configured. */
  lemma LeftoverSolidColorReachesDevice(inFd: int, outFd: int, stale: FillColor)
    ensures BlitTestRecord(inFd, outFd, SolidColor(true, stale)).param.layer0.solidColor == SolidColor(true, stale)
    ensures BlitTestRecord(inFd, outFd, SolidColor(true, stale)).param.layer0 != TestSurface(inFd)
  {
  }

  /** The blit test with `stSrc` cleared before its fields are set, as
      evidently intended: the leftover is the zero solid colour, layer 0 is
      exactly the configured input surface, and the run is the one above. */
  lemma BlitTestRunClearedSource(inFd: int, outFd: int, devFd: nat, fence: nat)
    ensures BlitTestRecord(inFd, outFd, ZeroSolidColor).param.layer0 == TestSurface(inFd)
    ensures !BlitTestRecord(inFd, outFd, ZeroSolidColor).param.layer0.solidColor.enable
    ensures EndJob(BlitTestJob(inFd, outFd, ZeroSolidColor), Unopened, QuietKernel(devFd, fence)).ret == WaitCode(0)
  {
    BlitTestRun(inFd, outFd, devFd, fence, ZeroSolidColor);
    assert BlitTestSource(inFd, ZeroSolidColor) == TestSurface(inFd);
  }

  /** The simple-case blend test: background and its rectangle, destination
      and its rectangle, and a blend configuration cleared except for its
      layer-0 area (0, 0, 320, 240); no foreground, mask or palette.  (The
      test passes NV12 surfaces of 320x240 with stride 320 at offset
      320*240.)  The record carries the two surfaces and rectangles as
      given and leaves layer 1, the mask and the palette zero-filled. */
  lemma SimpleBlendRecord(bg: Surface, out: Surface, bgRect: Area, dstRect: Area,
                          foreRotate: Code, backRotate: Code, foreCsc: Code, backCsc: Code, dither: Code)
    ensures var conf := ZeroBlendConf.(blendLayer0 := BlendLayerConf(Area(0, 0, 320, 240)));
            var added := AddBlendTask(BeginJob(true).handle,
                                      Some(bg), Some(bgRect), None, None, None, None,
                                      Some(out), Some(dstRect), Some(conf),
                                      foreRotate, backRotate, foreCsc, backCsc, None, dither, true);
            && added.Returned? && added.status == Success && added.handle.Live?
            && added.handle.job.currentTaskState == TaskKindBlend
            && |added.handle.job.tasks| == 1
            && var p := added.handle.job.tasks[0].param;
               && p.layer0 == bg && p.l0Rect == bgRect
               && p.layer1 == ZeroSurface && p.l1Rect == ZeroArea
               && p.mask == ZeroSurface && p.maskRect == ZeroArea
               && p.dst == out && p.dstRect == dstRect
               && p.blendConf == conf
               && p.palette == ZeroPalette
  {
  }

  /** Two blits on a fresh job, as the two-blit scenario issues them. */
  function TwoBlits(dst1: Surface, dstRect1: Area, src1: Surface, srcRect1: Area,
                    dst2: Surface, dstRect2: Area, src2: Surface, srcRect2: Area): Handle
  {
    var h1 := AddBitblitTask(BeginJob(true).handle, dst1, dstRect1, src1, srcRect1, CscModeButt, true).handle;
    AddBitblitTask(h1, dst2, dstRect2, src2, srcRect2, CscModeButt, true).handle
  }

  /** The job two blits build: both records, in call order. */
  lemma TwoBlitsJob(dst1: Surface, dstRect1: Area, src1: Surface, srcRect1: Area,
                    dst2: Surface, dstRect2: Area, src2: Surface, srcRect2: Area)
    ensures TwoBlits(dst1, dstRect1, src1, srcRect1, dst2, dstRect2, src2, srcRect2)
            == Live(Job(2, TaskKindNone, [BlitTask(dst1, dstRect1, src1, srcRect1, CscModeButt),
                                          BlitTask(dst2, dstRect2, src2, srcRect2, CscModeButt)]))
  {
    var h1 := AddBitblitTask(BeginJob(true).handle, dst1, dstRect1, src1, srcRect1, CscModeButt, true).handle;
    assert h1 == Live(Job(1, TaskKindNone, [BlitTask(dst1, dstRect1, src1, srcRect1, CscModeButt)]));
  }

  /** Two blits in one job: when the kernel accepts both, the device
      receives the two records in call order and the call reports 0. */
  lemma TwoBlitsInOrder(dst1: Surface, dstRect1: Area, src1: Surface, srcRect1: Area,
                        dst2: Surface, dstRect2: Area, src2: Surface, srcRect2: Area,
                        devFd: nat, fence: nat)
    ensures var h := TwoBlits(dst1, dstRect1, src1, srcRect1, dst2, dstRect2, src2, srcRect2);
            h.Live? && Valid(h.job) && |h.job.tasks| == 2
    ensures var h := TwoBlits(dst1, dstRect1, src1, srcRect1, dst2, dstRect2, src2, srcRect2);
            var r := EndJob(h, Unopened, QuietKernel(devFd, fence));
            && |Writes(r.log)| == 2
            && Writes(r.log)[0].param == BlitTask(dst1, dstRect1, src1, srcRect1, CscModeButt).param
            && Writes(r.log)[1].param == BlitTask(dst2, dstRect2, src2, srcRect2, CscModeButt).param
            && r.ret == WaitCode(0)
  {
    var env := QuietKernel(devFd, fence);
    var h := TwoBlits(dst1, dstRect1, src1, srcRect1, dst2, dstRect2, src2, srcRect2);
    TwoBlitsJob(dst1, dstRect1, src1, srcRect1, dst2, dstRect2, src2, srcRect2);
    var tasks := h.job.tasks;
    assert FirstShort(env.writeReply, 0, 2) == 2;
    JobProperties.EndJobWritesInListOrder(h, Unopened, env);
    var w := Writes(EndJob(h, Unopened, env).log);
    assert |w| == 2 && w[0].param == tasks[0].param && w[1].param == tasks[1].param;
    JobProperties.EndJobReportsLastWait(h, Unopened, env);
    assert LockAsync(fence, env.pollScript(1)).ret == 0;
  }

  /** A kernel that accepts two records with completion fences 10 and 11
      and no acquire fences, and answers the waits on them with `first`
      and `second`. */
  function TwoFenceKernel(first: PollReply, second: PollReply): Env
  {
    Env(3, j => Accepted(-1, 10 + j), j => if j == 0 then PollScript(0, first) else PollScript(0, second))
  }

  /** Only the last wait decides the result: a first fence that times out
      is not reported when the second one signals, while a first fence that
      signals does not save a second one that times out. */
  lemma LastWaitWins(h: Handle, dev: Device)
    requires h.Live? && Valid(h.job) && |h.job.tasks| == 2 && dev.gFd >= 0
    ensures EndJob(h, dev, TwoFenceKernel(TimedOut, Ready(PollIn))).ret == WaitCode(0)
    ensures EndJob(h, dev, TwoFenceKernel(Ready(PollIn), TimedOut)).ret == WaitCode(-1)
  {
    var late := TwoFenceKernel(TimedOut, Ready(PollIn));
    var early := TwoFenceKernel(Ready(PollIn), TimedOut);
    JobProperties.EndJobReportsLastWait(h, dev, late);
    JobProperties.EndJobReportsLastWait(h, dev, early);
    assert LockAsync(11, late.pollScript(1)).ret == 0;
    assert LockAsync(11, early.pollScript(1)).ret == -1;
  }

  /** A kernel that accepts the first record with acquire fence 5 and
      completion fence 6 and rejects every later write. */
  function ShortSecondWrite(): Env
  {
    Env(-1, j => if j == 0 then Accepted(5, 6) else Short, _ => PollScript(0, Ready(PollIn)))
  }

  /** A rejected second write: the first record was accepted with acquire
      fence 5 and completion fence 6, but submission stops with FAILURE
      before the drain, so neither fence is waited on or closed. */
  lemma ShortWriteLeaksEarlierFences(h: Handle, dev: Device)
    requires h.Live? && Valid(h.job) && |h.job.tasks| == 2 && dev.gFd >= 0
    ensures var r := EndJob(h, dev, ShortSecondWrite());
            && r.ret == Failed
            && |Writes(r.log)| == 2
            && Close(5) !in r.log && Close(6) !in r.log
            && forall e <- r.log :: !e.Poll?
  {
    var env := ShortSecondWrite();
    assert FirstShort(env.writeReply, 0, 2) == 1;
    JobProperties.EndJobWritesInListOrder(h, dev, env);
  }

  /** If FAILURE is -1, a caller cannot tell a rejected write from a last
      fence that timed out: both calls return -1. */
  lemma FailureCanLookLikeTimeout(h: Handle, dev: Device, unassigned: int)
    requires h.Live? && Valid(h.job) && |h.job.tasks| == 2 && dev.gFd >= 0
    ensures EndJob(h, dev, ShortSecondWrite()).ret == Failed
    ensures EndJob(h, dev, TwoFenceKernel(Ready(PollIn), TimedOut)).ret == WaitCode(-1)
    ensures ReturnValue(EndJob(h, dev, ShortSecondWrite()).ret, -1, unassigned)
            == ReturnValue(EndJob(h, dev, TwoFenceKernel(Ready(PollIn), TimedOut)).ret, -1, unassigned)
  {
    ShortWriteLeaksEarlierFences(h, dev);
    LastWaitWins(h, dev);
  }
}

=== FILE: submission.dfy ===
/**
  The submission driver of lib/v2d.c: `V2D_EndJob` opens the device lazily
  into the process-wide descriptor `gFd`, `V2dSubmitJob` writes every task
  record in list order and then drains the fences the kernel handed back,
  and `freeList` plus the final `free` release the job in every case.
*/
module Submission {
  import opened V2dTypes
  import opened Syscalls
  import opened FenceSync
  import opened JobQueue

  /** The process-wide device descriptor `gFd`; -1 while not open. */
  datatype Device = Device(gFd: int)

  const Unopened := Device(-1)

  /** The kernel's answers for one `V2D_EndJob`: what `open` returns, the
      reply to the write of the task at each list position, and the polls of
      the fence wait of the task at each list position. */
  datatype Env = Env(openResult: int, writeReply: nat -> WriteReply, pollScript: nat -> PollScript)

  /** What `V2D_EndJob` returns: FAILURE, the value a fence wait returned, or
      the value of a variable that was never assigned (an empty job). */
  datatype Ret = Failed | WaitCode(code: int) | Unspecified

  datatype WritePhase = WritePhase(complete: bool, log: seq<Event>, fenced: seq<Task>)

  datatype Drain = Drain(ret: Ret, log: seq<Event>)

  datatype EndResult = EndResult(ret: Ret, device: Device, log: seq<Event>)

  /** The record as `V2dSubmitJob` writes it: both fence slots set to -1. */
  function AsWritten(t: Task): Task
  {
    t.(acquireFence := -1, completeFence := -1)
  }

  /** The record after the kernel stored its fences into it. */
  function Filled(t: Task, reply: WriteReply): Task
  {
    match reply
    case Accepted(a, c) => t.(acquireFence := a, completeFence := c)
    case Short => t
  }

  /** The records of a fully accepted job after submission. */
  function FilledAll(tasks: seq<Task>, reply: nat -> WriteReply): (fs: seq<Task>)
    ensures |fs| == |tasks|
  {
    seq(|tasks|, k requires 0 <= k < |tasks| => Filled(AsWritten(tasks[k]), reply(k)))
  }

  /** The position of the first rejected write among positions `i` to `n-1`,
      or `n` when every write there is accepted. */
  function FirstShort(reply: nat -> WriteReply, i: nat, n: nat): (k: nat)
    requires i <= n
    ensures i <= k <= n
    ensures forall j :: i <= j < k ==> reply(j).Accepted?
    ensures k < n ==> reply(k).Short?
    decreases n - i
  {
    if i == n then n
    else if reply(i).Short? then i
    else FirstShort(reply, i + 1, n)
  }

  /** The first loop of `V2dSubmitJob`, from list position `i` on: it writes
      the records in list order and stops right after the first write that
      is not accepted. */
  function WriteLoop(fd: int, tasks: seq<Task>, reply: nat -> WriteReply, i: nat): (r: WritePhase)
    requires i <= |tasks|
    ensures r.complete <==> FirstShort(reply, i, |tasks|) == |tasks|
    ensures |r.log| == (if r.complete then |tasks| else FirstShort(reply, i, |tasks|) + 1) - i
    ensures forall e <- r.log :: e.Write? && e.fd == fd
    ensures forall k :: 0 <= k < |r.log| ==>
              && r.log[k].record.param == tasks[i + k].param
              && r.log[k].record.acquireFence == -1
              && r.log[k].record.completeFence == -1
    ensures r.complete ==> r.fenced == FilledAll(tasks, reply)[i..]
    decreases |tasks| - i
  {
    if i == |tasks| then WritePhase(true, [], [])
    else
      var record := AsWritten(tasks[i]);
      match reply(i)
      case Short => WritePhase(false, [Write(fd, record)], [])
      case Accepted(a, c) =>
        var rest := WriteLoop(fd, tasks, reply, i + 1);
        WritePhase(rest.complete, [Write(fd, record)] + rest.log, [Filled(record, reply(i))] + rest.fenced)
  }

  /** The descriptors the drain must close for the records from position `i`
      on, in order: each completion fence that is >= 0, then the acquire
      fence of the same task when it is > 0. */
  function ExpectedCloses(fenced: seq<Task>, i: nat): (fds: seq<int>)
    requires i <= |fenced|
    ensures forall k :: i <= k < |fenced| && fenced[k].completeFence >= 0 ==> fenced[k].completeFence in fds
    ensures forall k :: i <= k < |fenced| && fenced[k].acquireFence > 0 ==> fenced[k].acquireFence in fds
    ensures forall fd <- fds ::
              (exists k :: i <= k < |fenced| &&
                 ((fenced[k].completeFence == fd && fd >= 0) || (fenced[k].acquireFence == fd && fd > 0)))
    decreases |fenced| - i
  {
    if i == |fenced| then []
    else
      var t := fenced[i];
      (if t.completeFence >= 0 then [t.completeFence] else [])
      + (if t.acquireFence > 0 then [t.acquireFence] else [])
      + ExpectedCloses(fenced, i + 1)
  }

  /** The second loop of `V2dSubmitJob`, from position `i` on, with `ret` the
      value the result variable holds on entry.  Each task's completion fence
      is waited on and closed by `LockAsync`, then its acquire fence is closed
      when it is > 0; the result is overwritten by every task, so it is the
      wait result of the last task. */
  function DrainLoop(fenced: seq<Task>, script: nat -> PollScript, i: nat, ret: Ret): (r: Drain)
    requires i <= |fenced|
    ensures i == |fenced| ==> r == Drain(ret, [])
    ensures i < |fenced| ==>
              r.ret == WaitCode(LockAsync(fenced[|fenced| - 1].completeFence, script(|fenced| - 1)).ret)
    ensures forall e <- r.log :: e.Poll? || e.Close?
    decreases |fenced| - i
  {
    if i == |fenced| then Drain(ret, [])
    else
      var t := fenced[i];
      var w := LockAsync(t.completeFence, script(i));
      var acquire := if t.acquireFence > 0 then [Close(t.acquireFence)] else [];
      var rest := DrainLoop(fenced, script, i + 1, WaitCode(w.ret));
      FenceTrafficConcat(w.log, acquire, rest.log);
      Drain(rest.ret, w.log + acquire + rest.log)
  }

  /** Three logs of polls and closes make one. */
  lemma FenceTrafficConcat(a: seq<Event>, b: seq<Event>, c: seq<Event>)
    requires forall e <- a :: e.Poll? || e.Close?
    requires forall e <- b :: e.Poll? || e.Close?
    requires forall e <- c :: e.Poll? || e.Close?
    ensures forall e <- a + b + c :: e.Poll? || e.Close?
  {
  }

  /** The drain closes exactly the expected descriptors, in order. */
  lemma {:induction false} DrainCloses(fenced: seq<Task>, script: nat -> PollScript, i: nat, ret: Ret)
    requires i <= |fenced|
    ensures Closes(DrainLoop(fenced, script, i, ret).log) == ExpectedCloses(fenced, i)
    decreases |fenced| - i
  {
    if i < |fenced| {
      var t := fenced[i];
      var w := LockAsync(t.completeFence, script(i));
      var acquire := if t.acquireFence > 0 then [Close(t.acquireFence)] else [];
      var rest := DrainLoop(fenced, script, i + 1, WaitCode(w.ret));
      DrainCloses(fenced, script, i + 1, WaitCode(w.ret));
      assert DrainLoop(fenced, script, i, ret).log == w.log + acquire + rest.log;
      ClosesOfDrainStep(w.log, t.acquireFence, rest.log);
    }
  }

  /** One step of the drain closes what the wait closed, then the acquire
      fence if there is one, then what the remaining steps close. */
  lemma ClosesOfDrainStep(waitLog: seq<Event>, acquireFence: int, restLog: seq<Event>)
    ensures Closes(waitLog + (if acquireFence > 0 then [Close(acquireFence)] else []) + restLog)
            == Closes(waitLog) + (if acquireFence > 0 then [acquireFence] else []) + Closes(restLog)
  {
    var acquire := if acquireFence > 0 then [Close(acquireFence)] else [];
    ClosesAppend(waitLog, acquire);
    ClosesAppend(waitLog + acquire, restLog);
    assert Closes(acquire) == if acquireFence > 0 then [acquireFence] else [] by {
      if acquireFence > 0 {
        assert acquire[1..] == [];
      }
    }
  }

  /** Every poll of the drain uses the fixed timeout on a completion fence
      that is >= 0. */
  lemma {:induction false} DrainPolls(fenced: seq<Task>, script: nat -> PollScript, i: nat, ret: Ret)
    requires i <= |fenced|
    ensures forall e <- DrainLoop(fenced, script, i, ret).log :: e.Poll? ==>
              e.timeout == FenceTimeoutMs && exists k :: i <= k < |fenced| && fenced[k].completeFence == e.fd >= 0
    decreases |fenced| - i
  {
    if i < |fenced| {
      var t := fenced[i];
      var w := LockAsync(t.completeFence, script(i));
      var acquire := if t.acquireFence > 0 then [Close(t.acquireFence)] else [];
      var rest := DrainLoop(fenced, script, i + 1, WaitCode(w.ret));
      DrainPolls(fenced, script, i + 1, WaitCode(w.ret));
      assert DrainLoop(fenced, script, i, ret).log == w.log + acquire + rest.log;
      forall e <- w.log + acquire + rest.log | e.Poll?
        ensures e.timeout == FenceTimeoutMs && exists k :: i <= k < |fenced| && fenced[k].completeFence == e.fd >= 0
      {
        if e in w.log {
          var j :| 0 <= j < |w.log| && w.log[j] == e;
          assert t.completeFence >= 0;
          assert e == Poll(t.completeFence, FenceTimeoutMs);
        } else if e in acquire {
        } else {
          assert e in rest.log;
        }
      }
    }
  }

  /** The other direction: the drain waits on every completion fence that
      is >= 0 with the fixed timeout, and closes it after that wait. */
  lemma {:induction false} DrainWaitsEveryFence(fenced: seq<Task>, script: nat -> PollScript, i: nat, ret: Ret)
    requires i <= |fenced|
    ensures forall k :: i <= k < |fenced| && fenced[k].completeFence >= 0 ==>
              PolledThenClosed(DrainLoop(fenced, script, i, ret).log, fenced[k].completeFence)
    decreases |fenced| - i
  {
    if i < |fenced| {
      var t := fenced[i];
      var w := LockAsync(t.completeFence, script(i));
      var acquire := if t.acquireFence > 0 then [Close(t.acquireFence)] else [];
      var rest := DrainLoop(fenced, script, i + 1, WaitCode(w.ret));
      DrainWaitsEveryFence(fenced, script, i + 1, WaitCode(w.ret));
      assert DrainLoop(fenced, script, i, ret).log == w.log + acquire + rest.log;
      if t.completeFence >= 0 {
        assert w.log[0] == Poll(t.completeFence, FenceTimeoutMs);
        assert w.log[|w.log| - 1] == Close(t.completeFence);
        assert PolledThenClosed(w.log, t.completeFence);
      }
      forall k | i <= k < |fenced| && fenced[k].completeFence >= 0
        ensures PolledThenClosed(w.log + acquire + rest.log, fenced[k].completeFence)
      {
        PolledThenClosedAppend(w.log, acquire, fenced[k].completeFence);
        PolledThenClosedAppend(w.log + acquire, rest.log, fenced[k].completeFence);
      }
    }
  }

  /** `V2dSubmitJob` on descriptor `fd`. */
  function SubmitJob(fd: int, tasks: seq<Task>, env: Env): (r: Drain)
    ensures |tasks| == 0 ==> r == Drain(Unspecified, [])
    ensures r.ret == Failed <==> FirstShort(env.writeReply, 0, |tasks|) < |tasks|
    ensures forall e <- r.log :: e.Write? || e.Poll? || e.Close?
    ensures forall e <- r.log :: e.Write? ==> e.fd == fd
  {
    var w := WriteLoop(fd, tasks, env.writeReply, 0);
    if !w.complete then Drain(Failed, w.log)
    else
      var d := DrainLoop(w.fenced, env.pollScript, 0, Unspecified);
      Drain(d.ret, w.log + d.log)
  }

  /** `freeList` from list position `i` on: one free per node, head first. */
  function FreeList(tasks: seq<Task>, i: nat): (log: seq<Event>)
    requires i <= |tasks|
    ensures forall e <- log :: e.FreeTask?
    ensures forall k: nat :: multiset(log)[FreeTask(k)] == if i <= k < |tasks| then 1 else 0
    decreases |tasks| - i
  {
    if i == |tasks| then [] else [FreeTask(i)] + FreeList(tasks, i + 1)
  }

  /** True iff the event is a system call on a descriptor. */
  predicate IsIo(e: Event)
  {
    e.Write? || e.Poll? || e.Close?
  }

  /** The part of `V2D_EndJob` between the handle check and the release: the
      lazy open of the device, then submission on it. */
  function OpenAndSubmit(tasks: seq<Task>, dev: Device, env: Env): (r: EndResult)
    ensures dev.gFd >= 0 ==> r.device == dev && forall e <- r.log :: IsIo(e)
    ensures dev.gFd < 0 ==>
              |r.log| > 0 && r.log[0] == OpenDevice(DevName, env.openResult) && forall e <- r.log[1..] :: IsIo(e)
    ensures dev.gFd < 0 && env.openResult >= 0 ==> r.device == Device(env.openResult)
    ensures dev.gFd < 0 && env.openResult < 0 ==> r == EndResult(Failed, Unopened, [OpenDevice(DevName, env.openResult)])
    ensures forall e <- r.log :: e.Write? ==> e.fd == r.device.gFd >= 0
  {
    if dev.gFd < 0 then
      if env.openResult >= 0 then
        var s := SubmitJob(env.openResult, tasks, env);
        assert ([OpenDevice(DevName, env.openResult)] + s.log)[1..] == s.log;
        EndResult(s.ret, Device(env.openResult), [OpenDevice(DevName, env.openResult)] + s.log)
      else
        EndResult(Failed, Unopened, [OpenDevice(DevName, env.openResult)])
    else
      var s := SubmitJob(dev.gFd, tasks, env);
      EndResult(s.ret, dev, s.log)
  }

  /** Appending the frees to a log that has none releases each task once and
      the job once, last. */
  lemma ReleaseAll(pre: seq<Event>, tasks: seq<Task>)
    requires forall e <- pre :: !e.FreeTask? && !e.FreeJob?
    ensures var log := pre + FreeList(tasks, 0) + [FreeJob];
            && log[|log| - 1] == FreeJob
            && multiset(log)[FreeJob] == 1
            && forall k: nat :: multiset(log)[FreeTask(k)] == if k < |tasks| then 1 else 0
  {
    var frees := FreeList(tasks, 0);
    assert FreeJob !in pre && FreeJob !in frees;
    assert forall k: nat :: FreeTask(k) !in pre;
  }

  /** `V2D_EndJob(h)` with the device state `dev` on entry.  A live handle
      must come from `BeginJob` and the Add calls, which keep it valid. */
  function EndJob(h: Handle, dev: Device, env: Env): (r: EndResult)
    requires h.Live? ==> Valid(h.job)
    ensures h.Null? ==> r == EndResult(Failed, dev, [])
    ensures dev.gFd >= 0 ==> r.device == dev
    ensures h.Live? && dev.gFd < 0 && env.openResult >= 0 ==> r.device == Device(env.openResult)
    ensures h.Live? && dev.gFd < 0 && env.openResult < 0 ==> r.ret == Failed && r.device == Unopened
    ensures h.Live? ==> |r.log| > 0 && r.log[|r.log| - 1] == FreeJob
  {
    match h
    case Null => EndResult(Failed, dev, [])
    case Live(job) =>
      var s := OpenAndSubmit(job.tasks, dev, env);
      s.(log := s.log + FreeList(job.tasks, 0) + [FreeJob])
  }

  /** Whatever happens during submission, `V2D_EndJob` on a live handle
      frees every task node exactly once and the job record exactly once,
      last; on the null handle it frees nothing. */
  lemma EndJobReleasesEverything(h: Handle, dev: Device, env: Env)
    requires h.Live? ==> Valid(h.job)
    ensures var r := EndJob(h, dev, env);
            && (h.Live? ==> multiset(r.log)[FreeJob] == 1)
            && (h.Live? ==> forall k: nat :: multiset(r.log)[FreeTask(k)] == if k < |h.job.tasks| then 1 else 0)
            && (h.Null? ==> forall e <- r.log :: !e.FreeTask? && !e.FreeJob?)
  {
    if h.Live? {
      var s := OpenAndSubmit(h.job.tasks, dev, env);
      SubmissionFreesNothing(h.job.tasks, dev, env);
      assert EndJob(h, dev, env).log == s.log + FreeList(h.job.tasks, 0) + [FreeJob];
      ReleaseAll(s.log, h.job.tasks);
    }
  }

  /** The open and the submission release nothing. */
  lemma SubmissionFreesNothing(tasks: seq<Task>, dev: Device, env: Env)
    ensures forall e <- OpenAndSubmit(tasks, dev, env).log :: !e.FreeTask? && !e.FreeJob?
  {
    var s := OpenAndSubmit(tasks, dev, env);
    assert s.log == [] || s.log == [s.log[0]] + s.log[1..];
  }

  /** The device is opened at most once per call, and only while `gFd` is
      negative; when the open fails nothing is written; every write goes to
      the descriptor left in `gFd`. */
  lemma EndJobOpensLazily(h: Handle, dev: Device, env: Env)
    requires h.Live? ==> Valid(h.job)
    ensures var r := EndJob(h, dev, env);
            && (dev.gFd >= 0 ==> forall e <- r.log :: !e.OpenDevice?)
            && (h.Live? && dev.gFd < 0 ==>
                  r.log[0] == OpenDevice(DevName, env.openResult) && forall e <- r.log[1..] :: !e.OpenDevice?)
            && (h.Live? && dev.gFd < 0 && env.openResult < 0 ==> forall e <- r.log :: !e.Write?)
            && (forall e <- r.log :: e.Write? ==> e.fd == r.device.gFd >= 0)
  {
    if h.Live? {
      var s := OpenAndSubmit(h.job.tasks, dev, env);
      var tail := FreeList(h.job.tasks, 0) + [FreeJob];
      ReleaseIsQuiet(h.job.tasks);
      assert EndJob(h, dev, env).log == s.log + tail;
      if dev.gFd < 0 {
        assert (s.log + tail)[1..] == s.log[1..] + tail;
      }
    }
  }

  /** The release that ends `V2D_EndJob` neither opens nor writes. */
  lemma ReleaseIsQuiet(tasks: seq<Task>)
    ensures forall e <- FreeList(tasks, 0) + [FreeJob] :: !e.OpenDevice? && !e.Write?
  {
  }

  /** The `int` a caller of `V2D_EndJob` receives: FAILURE stands for
      `failure`, whose value the model does not fix, and an empty job
      returns the `unassigned` value the result variable happened to hold. */
  function ReturnValue(r: Ret, failure: int, unassigned: int): int
  {
    match r
    case Failed => failure
    case WaitCode(code) => code
    case Unspecified => unassigned
  }

  /** The descriptor `V2D_EndJob` submits on, when it gets one. */
  function SubmitFd(dev: Device, env: Env): int
  {
    if dev.gFd >= 0 then dev.gFd else env.openResult
  }

  predicate DeviceAvailable(dev: Device, env: Env)
  {
    dev.gFd >= 0 || env.openResult >= 0
  }
}

=== FILE: syscalls.dfy ===
/**
  The kernel as the V2D library sees it.  The system calls (`open`, `write`,
  `poll`, `close`, `free`) are not executed by the model: their results are
  inputs (oracle replies) and their effects are recorded as events in a log.
*/
module Syscalls {
  import opened V2dTypes

  /** DEV_NAME: the device node the library opens. */
  const DevName := "/dev/v2d_dev"

  /** The `poll` event bits the library looks at (Linux <poll.h>). */
  const PollIn: bv16 := 0x001
  const PollErr: bv16 := 0x008
  const PollNval: bv16 := 0x020

  /** The fence wait timeout the library passes to `poll`, in milliseconds. */
  const FenceTimeoutMs := 3000

  /** One observable effect of the library on the kernel or the heap. */
  datatype Event =
    | OpenDevice(path: string, result: int)   // open(DEV_NAME, ...) returned `result`
    | Write(fd: int, record: Task)            // write(fd, node, sizeof(V2D_TASK_S)): the node's record; its link pointer is not modelled
    | Poll(fd: int, timeout: int)             // poll({fd, POLLIN}, 1, timeout)
    | Close(fd: int)                          // close(fd)
    | FreeTask(index: nat)                    // free of the list node at position `index`
    | FreeJob                                 // free of the job record

  /** The kernel's answer to the write of one task record: either the whole
      record was accepted, in which case the driver has stored an acquire
      fence and a completion fence (-1 meaning none) into the record, or the
      write returned anything other than the record size. */
  datatype WriteReply = Accepted(acquireFence: int, completeFence: int) | Short

  /** A `poll` result that is neither positive, nor 0, nor -1. */
  type BelowMinusOne = x: int | x < -1 witness -2

  /** A `poll` result other than -1: some descriptor is ready with the given
      returned events, the timeout expired, or another negative value. */
  datatype PollReply = Ready(revents: bv16) | TimedOut | PollError(ret: BelowMinusOne)

  /** The kernel's answers to the polls of one fence wait: `interrupted`
      calls that return -1, then one `final` reply. */
  datatype PollScript = PollScript(interrupted: nat, final: PollReply)

  /** The file descriptors of the `Close` events of a log, in order. */
  function Closes(log: seq<Event>): (fds: seq<int>)
    ensures |fds| <= |log|
    ensures forall fd :: fd in fds <==> Close(fd) in log
  {
    if |log| == 0 then []
    else (if log[0].Close? then [log[0].fd] else []) + Closes(log[1..])
  }

  /** The records of the `Write` events of a log, in order. */
  function Writes(log: seq<Event>): (records: seq<Task>)
    ensures |records| <= |log|
  {
    if |log| == 0 then []
    else (if log[0].Write? then [log[0].record] else []) + Writes(log[1..])
  }

  lemma {:induction false} ClosesAppend(a: seq<Event>, b: seq<Event>)
    ensures Closes(a + b) == Closes(a) + Closes(b)
  {
    if |a| > 0 {
      assert (a + b)[1..] == a[1..] + b;
      ClosesAppend(a[1..], b);
    } else {
      assert a + b == b;
    }
  }

  lemma {:induction false} WritesAppend(a: seq<Event>, b: seq<Event>)
    ensures Writes(a + b) == Writes(a) + Writes(b)
  {
    if |a| > 0 {
      assert (a + b)[1..] == a[1..] + b;
      WritesAppend(a[1..], b);
    } else {
      assert a + b == b;
    }
  }

  /** A log of `Write` events only lists exactly their records. */
  lemma {:induction false} WritesOfWriteLog(log: seq<Event>)
    requires forall e <- log :: e.Write?
    ensures Writes(log) == seq(|log|, k requires 0 <= k < |log| => log[k].record)
  {
    if |log| > 0 {
      WritesOfWriteLog(log[1..]);
    }
  }

  /** A log without `Close` events has no closes. */
  lemma {:induction false} ClosesOfCloseFree(log: seq<Event>)
    requires forall e <- log :: !e.Close?
    ensures Closes(log) == []
  {
    if |log| > 0 {
      ClosesOfCloseFree(log[1..]);
    }
  }

  /** A log without `Write` events has no writes. */
  lemma {:induction false} WritesOfWriteFree(log: seq<Event>)
    requires forall e <- log :: !e.Write?
    ensures Writes(log) == []
  {
    if |log| > 0 {
      WritesOfWriteFree(log[1..]);
    }
  }

  /** True iff the log waits on fence `fd` with the fixed timeout and closes
      it at some later position. */
  predicate PolledThenClosed(log: seq<Event>, fd: int)
  {
    exists p, c :: 0 <= p < c < |log| && log[p] == Poll(fd, FenceTimeoutMs) && log[c] == Close(fd)
  }

  /** A wait followed by a close stays one when events are added on either
      side. */
  lemma PolledThenClosedAppend(a: seq<Event>, b: seq<Event>, fd: int)
    ensures PolledThenClosed(a, fd) ==> PolledThenClosed(a + b, fd)
    ensures PolledThenClosed(b, fd) ==> PolledThenClosed(a + b, fd)
  {
    if PolledThenClosed(a, fd) {
      var p, c :| 0 <= p < c < |a| && a[p] == Poll(fd, FenceTimeoutMs) && a[c] == Close(fd);
      assert (a + b)[p] == a[p] && (a + b)[c] == a[c];
    }
    if PolledThenClosed(b, fd) {
      var p, c :| 0 <= p < c < |b| && b[p] == Poll(fd, FenceTimeoutMs) && b[c] == Close(fd);
      assert (a + b)[|a| + p] == b[p] && (a + b)[|a| + c] == b[c];
    }
  }
}

=== FILE: task_builder.dfy ===
/**
  The task builders of lib/v2d.c: each `V2D_Add*Task` zero-fills a new task
  record and then copies or derives some of its fields from the arguments.
  A C pointer argument the builder tests for NULL is an `Option` here; one it
  dereferences unconditionally is a plain value, since passing NULL there
  faults in the source.
*/
module TaskBuilder {
  import opened V2dTypes

  /** The fill task of `V2D_AddFillTask`: layer 0 is a solid-colour
      pseudo-source and the destination rectangle doubles as the blend area. */
  function FillTask(dst: Option<Surface>, dstRect: Area, color: FillColor): (t: Task)
    ensures t.param.l0Csc == CscModeButt
    ensures t.param.layer0.solidColor == SolidColor(true, color)
    ensures t.param.layer0.(solidColor := ZeroSolidColor) == ZeroSurface
    ensures CopiedOrZero(t.param.dst, dst, ZeroSurface)
    ensures t.param.dstRect == dstRect
    ensures t.param.blendConf.blendCmd == BlendCmdAlpha
    ensures t.param.blendConf.bgColor == ZeroBgColor
    ensures t.param.blendConf.blendLayer0.blendArea == dstRect
    ensures t.param.blendConf.blendLayer1 == ZeroBlendLayerConf
    ensures ZeroOutside(t.param, {Layer0, Dst, DstRect, L0Csc, Blend})
    ensures t.acquireFence == 0 && t.completeFence == 0
  {
    var layer0 := ZeroSurface.(solidColor := SolidColor(true, color));
    var withDst := if dst.Some? then ZeroParam.(dst := dst.value) else ZeroParam;
    var blend := ZeroBlendConf.(
      blendCmd := BlendCmdAlpha,
      bgColor := ZeroBgColor.(enable := false),
      blendLayer0 := BlendLayerConf(Area(dstRect.x, dstRect.y, dstRect.w, dstRect.h)));
    ZeroTask.(param := withDst.(l0Csc := CscModeButt, layer0 := layer0, dstRect := dstRect, blendConf := blend))
  }

  /** The copy task of `V2D_AddBitblitTask`.  The conversion mode argument is
      accepted but never read: layer 0 always gets the "no conversion" mode,
      and the blend command is left at zero. */
  function BlitTask(dst: Surface, dstRect: Area, src: Surface, srcRect: Area, cscMode: Code): (t: Task)
    ensures t.param.l0Csc == CscModeButt
    ensures t.param.layer0 == src && t.param.l0Rect == srcRect
    ensures t.param.dst == dst && t.param.dstRect == dstRect
    ensures t.param.blendConf.blendCmd == ZeroCode
    ensures t.param.blendConf.bgColor == ZeroBgColor
    ensures t.param.blendConf.blendLayer0.blendArea == dstRect
    ensures t.param.blendConf.blendLayer1 == ZeroBlendLayerConf
    ensures ZeroOutside(t.param, {Layer0, L0Rect, Dst, DstRect, L0Csc, Blend})
    ensures t.acquireFence == 0 && t.completeFence == 0
  {
    var blend := ZeroBlendConf.(
      bgColor := ZeroBgColor.(enable := false),
      blendLayer0 := BlendLayerConf(Area(dstRect.x, dstRect.y, dstRect.w, dstRect.h)));
    ZeroTask.(param := ZeroParam.(
      l0Csc := CscModeButt,
      layer0 := src, l0Rect := srcRect,
      dst := dst, dstRect := dstRect,
      blendConf := blend))
  }

  /** The value a field receives from a pointer argument: `memcpy` of the
      pointee when non-null, the zero fill otherwise. */
  function OrZero<T>(arg: Option<T>, zero: T): T
  {
    if arg.Some? then arg.value else zero
  }

  /** The blend task of `V2D_AddBlendTask`: layer 0 is the background, layer 1
      the foreground; scalar selectors are copied, and every pointer argument
      is copied when non-null and leaves its field zero otherwise. */
  function BlendTask(
    background: Option<Surface>, backgroundRect: Option<Area>,
    foreground: Option<Surface>, foregroundRect: Option<Area>,
    mask: Option<Surface>, maskRect: Option<Area>,
    dst: Option<Surface>, dstRect: Option<Area>,
    blendConf: Option<BlendConf>,
    foreRotate: Code, backRotate: Code,
    foreCsc: Code, backCsc: Code,
    palette: Option<Palette>,
    dither: Code): (t: Task)
    ensures t.param.l0Csc == backCsc && t.param.l1Csc == foreCsc
    ensures t.param.l0Rotate == backRotate && t.param.l1Rotate == foreRotate
    ensures t.param.dither == dither
    ensures CopiedOrZero(t.param.layer0, background, ZeroSurface)
    ensures CopiedOrZero(t.param.l0Rect, backgroundRect, ZeroArea)
    ensures CopiedOrZero(t.param.layer1, foreground, ZeroSurface)
    ensures CopiedOrZero(t.param.l1Rect, foregroundRect, ZeroArea)
    ensures CopiedOrZero(t.param.mask, mask, ZeroSurface)
    ensures CopiedOrZero(t.param.maskRect, maskRect, ZeroArea)
    ensures CopiedOrZero(t.param.dst, dst, ZeroSurface)
    ensures CopiedOrZero(t.param.dstRect, dstRect, ZeroArea)
    ensures CopiedOrZero(t.param.blendConf, blendConf, ZeroBlendConf)
    ensures CopiedOrZero(t.param.palette, palette, ZeroPalette)
    ensures t.acquireFence == 0 && t.completeFence == 0
  {
    ZeroTask.(param := Param(
      OrZero(background, ZeroSurface), OrZero(backgroundRect, ZeroArea),
      OrZero(foreground, ZeroSurface), OrZero(foregroundRect, ZeroArea),
      OrZero(mask, ZeroSurface), OrZero(maskRect, ZeroArea),
      OrZero(dst, ZeroSurface), OrZero(dstRect, ZeroArea),
      backCsc, foreCsc,
      backRotate, foreRotate,
      dither,
      OrZero(blendConf, ZeroBlendConf),
      OrZero(palette, ZeroPalette)))
  }

  /** Whatever conversion mode the caller asks for, the blit record is the
      same. */
  lemma BlitIgnoresCscMode(dst: Surface, dstRect: Area, src: Surface, srcRect: Area, m1: Code, m2: Code)
    ensures BlitTask(dst, dstRect, src, srcRect, m1) == BlitTask(dst, dstRect, src, srcRect, m2)
  {
  }

  /** A blend task given only null pointers and zero selectors is the
      zero-filled record: the builder adds nothing of its own. */
  lemma BlendOfNothingIsZero()
    ensures BlendTask(None, None, None, None, None, None, None, None, None,
                      ZeroCode, ZeroCode, ZeroCode, ZeroCode, None, ZeroCode) == ZeroTask
  {
  }

  /** A fill record determines its inputs: the destination rectangle and the
      colour can be read back from it, and so can the destination surface
      whenever one was given. */
  lemma FillRecordDeterminesInputs(d1: Option<Surface>, r1: Area, c1: FillColor,
                                   d2: Option<Surface>, r2: Area, c2: FillColor)
    requires d1.Some? && d2.Some?
    requires FillTask(d1, r1, c1) == FillTask(d2, r2, c2)
    ensures d1 == d2 && r1 == r2 && c1 == c2
  {
    var t1, t2 := FillTask(d1, r1, c1), FillTask(d2, r2, c2);
    assert t1.param.layer0.solidColor.fillColor == c1;
    assert t2.param.layer0.solidColor.fillColor == c2;
  }
}

=== FILE: test_driver.dfy ===
/**
  The parts of the test program that are arithmetic and control, not
  device traffic: the page rounding of buffer sizes (ALIGN_UP with
  PAGESIZE, computed on the 64-bit `size` field and stored into a 32-bit
  `unsigned int`) and the dispatch of `main` on its arguments.
*/
module TestDriver {

  /** 2^64 and 2^32: the ranges of uint64_t and of unsigned int. */
  const U64Range: nat := 0x1_0000_0000_0000_0000
  const U32Range: nat := 0x1_0000_0000

  /** PAGESIZE. */
  const PageSize: nat := 4096

  /** ALIGN_UP(size, shift) on uint64_t operands: the sum wraps modulo
      2^64, the division truncates, and the product cannot wrap because it
      does not exceed the wrapped sum. */
  function AlignUp(size: nat, shift: nat): (r: nat)
    requires size < U64Range && 0 < shift < U64Range
    ensures r < U64Range
    ensures r % shift == 0
    ensures size + shift - 1 < U64Range ==> size <= r < size + shift
    ensures size + shift - 1 >= U64Range ==> r < shift
  {
    var sum := (size + shift - 1) % U64Range;
    RoundDown(sum, shift);
    sum / shift * shift
  }

  /** Truncating division then multiplication rounds down to a multiple,
      by less than the divisor. */
  lemma RoundDown(n: nat, k: nat)
    requires k > 0
    ensures 0 <= n / k * k <= n < n / k * k + k
    ensures (n / k * k) % k == 0
  {
    var q := n / k;
    MulMonotone(0, q, k);
    DivModUnique(n, k, q, n % k);
    DivModUnique(q * k, k, q, 0);
  }

  /** Euclidean division has one quotient and one remainder. */
  lemma DivModUnique(n: int, k: int, a: int, b: int)
    requires k > 0 && 0 <= b < k && n == a * k + b
    ensures n / k == a && n % k == b
  {
    var a', b' := n / k, n % k;
    assert (a - a') * k == b' - b;
    if a > a' {
      MulMonotone(1, a - a', k);
      assert false;
    } else if a < a' {
      MulMonotone(1, a' - a, k);
      assert false;
    }
  }

  /** When the sum does not wrap, ALIGN_UP is the least multiple of `shift`
      that is at least `size`. */
  lemma {:induction false} AlignUpIsLeastMultiple(size: nat, shift: nat, m: nat)
    requires size < U64Range && 0 < shift < U64Range
    requires size + shift - 1 < U64Range
    requires m % shift == 0 && m >= size
    ensures AlignUp(size, shift) <= m
  {
    var r := AlignUp(size, shift);
    if m < r {
      var a, b := m / shift, r / shift;
      assert m == a * shift;
      assert r == b * shift;
      assert (a + 1) * shift == m + shift;
      assert a < b by {
        if a >= b {
          MulMonotone(b, a, shift);
          assert false;
        }
      }
      MulMonotone(a + 1, b, shift);
      assert false;
    }
  }

  lemma MulMonotone(x: nat, y: nat, k: nat)
    requires x <= y
    ensures x * k <= y * k
  {
    assert y * k == x * k + (y - x) * k;
  }

  /** A size that is already a multiple of `shift` is left as it is, so
      rounding twice is rounding once. */
  lemma AlignUpKeepsMultiples(size: nat, shift: nat)
    requires size < U64Range && 0 < shift < U64Range
    requires size + shift - 1 < U64Range
    requires size % shift == 0
    ensures AlignUp(size, shift) == size
  {
    AlignUpIsLeastMultiple(size, shift, size);
  }

  /** The wrap of the 64-bit sum: for sizes within `shift - 1` of 2^64 the
      macro rounds DOWN to a small value instead of up. */
  lemma AlignUpWrapsNearTop()
    ensures AlignUp(U64Range - 1, PageSize) == 0
    ensures AlignUp(U64Range - PageSize, PageSize) == U64Range - PageSize
  {
  }

  /** The mapping size a test stores: ALIGN_UP(size, PAGESIZE) assigned to
      an `unsigned int`, so truncated to 32 bits. */
  function MapSize(size: nat): (r: nat)
    requires size < U64Range
    ensures r < U32Range
    ensures size + PageSize - 1 < U32Range ==> r % PageSize == 0 && size <= r < size + PageSize
  {
    AlignUp(size, PageSize) % U32Range
  }

  /** The blend test's buffers: 115200 + 4800 and 320*240*3 + 4800 bytes. */
  lemma AdvBlendMapSizes()
    ensures MapSize(115200 + 4800) == 122880
    ensures MapSize(320 * 240 * 3 + 4800) == 237568
  {
    assert 122880 == 30 * PageSize;
    assert 237568 == 58 * PageSize;
  }

  /** The simple case's buffers: 115200 bytes each. */
  lemma SimpleCaseMapSize()
    ensures MapSize(115200) == 118784
  {
    assert 118784 == 29 * PageSize;
  }

  /** The fill and blit tests' buffers: 320*240*4 bytes, already
      page-aligned. */
  lemma RgbaMapSize()
    ensures MapSize(320 * 240 * 4) == 320 * 240 * 4
  {
    AlignUpKeepsMultiples(320 * 240 * 4, PageSize);
  }

  /** The clock-rate file the rate options write. */
  const ClockRateFile := "/sys/bus/platform/devices/c0100000.v2d/clkrate"

  /** The rate options and the value each writes, in hertz. */
  const RateValues: map<string, string> :=
    map["204M" := "204800000", "307M" := "307200000", "491M" := "491520000"]

  /** What `main` does for an argument vector. */
  datatype Action =
    | Usage                                        // fewer than two arguments: print usage, return -1
    | SetRateThenSimpleCase(file: string, value: string)
    | AdvBlendTest                                 // v2d_adv
    | FillTest                                     // v2d_fill_test
    | BlitTest                                     // v2d_blit_test
    | Help                                         // print usage, return 0
    | InputError                                   // print an error, return 0

  /** True iff the arguments are exactly `--rate` and a known rate. */
  predicate IsRateRequest(argv: seq<string>)
  {
    |argv| == 3 && argv[1] == "--rate" && argv[2] in RateValues
  }

  /** The branch `main` takes.  Only the rate options check the argument
      count; the others look at `argv[1]` alone, so extra arguments after
      them are ignored while `--rate 204M extra` is an input error. */
  function Dispatch(argv: seq<string>): (a: Action)
    ensures a == Usage <==> |argv| < 2
    ensures a.SetRateThenSimpleCase? <==> IsRateRequest(argv)
    ensures a.SetRateThenSimpleCase? ==> a.file == ClockRateFile && a.value == RateValues[argv[2]]
    ensures a == AdvBlendTest <==> |argv| >= 2 && !IsRateRequest(argv) && argv[1] == "--blend"
    ensures a == FillTest <==> |argv| >= 2 && !IsRateRequest(argv) && argv[1] == "--fill"
    ensures a == BlitTest <==> |argv| >= 2 && !IsRateRequest(argv) && argv[1] == "--blit"
    ensures a == Help <==> |argv| >= 2 && !IsRateRequest(argv) && argv[1] == "--help"
    ensures a == InputError <==>
              |argv| >= 2 && !IsRateRequest(argv) && argv[1] !in {"--blend", "--fill", "--blit", "--help"}
  {
    if |argv| < 2 then Usage
    else if |argv| == 3 && argv[1] == "--rate" && argv[2] == "204M" then
      SetRateThenSimpleCase(ClockRateFile, "204800000")
    else if |argv| == 3 && argv[1] == "--rate" && argv[2] == "307M" then
      SetRateThenSimpleCase(ClockRateFile, "307200000")
    else if |argv| == 3 && argv[1] == "--rate" && argv[2] == "491M" then
      SetRateThenSimpleCase(ClockRateFile, "491520000")
    else if argv[1] == "--blend" then AdvBlendTest
    else if argv[1] == "--fill" then FillTest
    else if argv[1] == "--blit" then BlitTest
    else if argv[1] == "--help" then Help
    else InputError
  }

  /** True iff the action runs one of the test cases. */
  predicate RunsTest(a: Action)
  {
    a.SetRateThenSimpleCase? || a == AdvBlendTest || a == FillTest || a == BlitTest
  }

  /** The exit status of `main`, given what the test case it runs returns
      (the result of the clock-rate write is ignored). */
  function MainReturn(argv: seq<string>, testRet: int): (r: int)
    ensures |argv| < 2 ==> r == -1
    ensures RunsTest(Dispatch(argv)) ==> r == testRet
    ensures Dispatch(argv) == Help || Dispatch(argv) == InputError ==> r == 0
  {
    match Dispatch(argv)
    case Usage => -1
    case Help => 0
    case InputError => 0
    case _ => testRet
  }

  /** Everything after `argv[1]` is ignored once the vector is not exactly
      a rate request: two such vectors with the same first option take the
      same branch. */
  lemma OnlyFirstOptionCounts(argv: seq<string>, other: seq<string>)
    requires |argv| >= 2 && |other| >= 2 && argv[1] == other[1]
    requires !IsRateRequest(argv) && !IsRateRequest(other)
    ensures Dispatch(argv) == Dispatch(other)
  {
  }

  /** An unknown option, or a rate request with a stray argument, makes
      `main` return 0 like a successful test run. */
  lemma ErrorsExitZero(rate: string, extra: string)
    requires rate in RateValues
    ensures MainReturn(["v2d_test", "--rate", rate, extra], -1) == 0
    ensures MainReturn(["v2d_test", "--rate"], -1) == 0
  {
    assert Dispatch(["v2d_test", "--rate", rate, extra]) == InputError;
    assert Dispatch(["v2d_test", "--rate"]) == InputError;
  }
}

=== FILE: types.dfy ===
/**
  Data model of the V2D task records (lib/v2d.c).

  The hardware descriptor types (surface, area, blend configuration, palette)
  are declared in a vendor header that is not part of this model.  They are
  modelled here as plain records holding only the fields the library touches,
  each with a distinguished all-zero value standing for the `memset(.., 0, ..)`
  the library performs before filling a record in.
*/
module V2dTypes {

  datatype Option<T> = None | Some(value: T)

  /** An enumerator of one of the vendor's enum types.  Their numeric values
      are not known to the model, so an enumerator is kept symbolic; `ZeroCode`
      is the value an enum field holds after the record was zero-filled. */
  datatype Code = ZeroCode | Named(name: string)

  /** V2D_CSC_MODE_BUTT: the "no colour-space conversion" sentinel. */
  const CscModeButt: Code := Named("V2D_CSC_MODE_BUTT")

  /** V2D_BLENDCMD_ALPHA: the alpha-blend command. */
  const BlendCmdAlpha: Code := Named("V2D_BLENDCMD_ALPHA")

  /** V2D_AREA_S: a rectangle. */
  datatype Area = Area(x: int, y: int, w: int, h: int)

  const ZeroArea := Area(0, 0, 0, 0)

  /** V2D_FILLCOLOR_S: a colour value together with its pixel format. */
  datatype FillColor = FillColor(format: Code, colorValue: int)

  const ZeroFillColor := FillColor(ZeroCode, 0)

  /** The solid-colour source of a layer: when enabled, the layer reads
      `fillColor` instead of pixel memory. */
  datatype SolidColor = SolidColor(enable: bool, fillColor: FillColor)

  const ZeroSolidColor := SolidColor(false, ZeroFillColor)

  /** V2D_SURFACE_S: a pixel buffer (backing dma-buf fd, geometry, format). */
  datatype Surface = Surface(
    fbcEnable: bool,
    fd: int,
    offset: int,
    w: int,
    h: int,
    stride: int,
    format: Code,
    solidColor: SolidColor)

  const ZeroSurface := Surface(false, 0, 0, 0, 0, 0, ZeroCode, ZeroSolidColor)

  /** The background colour of a blend configuration. */
  datatype BgColor = BgColor(enable: bool, fillColor: FillColor)

  const ZeroBgColor := BgColor(false, ZeroFillColor)

  /** V2D_BLEND_LAYER_CONF_S, reduced to its blend area. */
  datatype BlendLayerConf = BlendLayerConf(blendArea: Area)

  const ZeroBlendLayerConf := BlendLayerConf(ZeroArea)

  /** V2D_BLEND_CONF_S: blend command, background colour and the per-layer
      configuration of the two input layers (`blendlayer[0]`, `blendlayer[1]`). */
  datatype BlendConf = BlendConf(
    blendCmd: Code,
    bgColor: BgColor,
    blendLayer0: BlendLayerConf,
    blendLayer1: BlendLayerConf)

  const ZeroBlendConf := BlendConf(ZeroCode, ZeroBgColor, ZeroBlendLayerConf, ZeroBlendLayerConf)

  /** V2D_PALETTE_S, an opaque colour table. */
  datatype Palette = Palette(len: int, entries: seq<int>)

  const ZeroPalette := Palette(0, [])

  /** V2D_PARAM_S: the parameters of one hardware operation. */
  datatype Param = Param(
    layer0: Surface, l0Rect: Area,
    layer1: Surface, l1Rect: Area,
    mask: Surface, maskRect: Area,
    dst: Surface, dstRect: Area,
    l0Csc: Code, l1Csc: Code,
    l0Rotate: Code, l1Rotate: Code,
    dither: Code,
    blendConf: BlendConf,
    palette: Palette)

  const ZeroParam := Param(
    ZeroSurface, ZeroArea, ZeroSurface, ZeroArea, ZeroSurface, ZeroArea, ZeroSurface, ZeroArea,
    ZeroCode, ZeroCode, ZeroCode, ZeroCode, ZeroCode, ZeroBlendConf, ZeroPalette)

  /** V2D_SUBMIT_TASK_S: the record written to the device, with its two fence
      slots (acquire, completion) that the kernel fills in on submission. */
  datatype Task = Task(param: Param, acquireFence: int, completeFence: int)

  /** A freshly zero-filled task record: note that its fence slots hold 0,
      not the "absent" value -1. */
  const ZeroTask := Task(ZeroParam, 0, 0)

  /** The top-level fields of a `Param`, used to say which of them a task
      builder leaves at their zero value. */
  datatype Field =
    | Layer0 | L0Rect | Layer1 | L1Rect | Mask | MaskRect | Dst | DstRect
    | L0Csc | L1Csc | L0Rotate | L1Rotate | Dither | Blend | PaletteField

  /** True iff field `f` of `p` holds its zero value. */
  predicate IsZeroField(p: Param, f: Field)
  {
    match f
    case Layer0 => p.layer0 == ZeroSurface
    case L0Rect => p.l0Rect == ZeroArea
    case Layer1 => p.layer1 == ZeroSurface
    case L1Rect => p.l1Rect == ZeroArea
    case Mask => p.mask == ZeroSurface
    case MaskRect => p.maskRect == ZeroArea
    case Dst => p.dst == ZeroSurface
    case DstRect => p.dstRect == ZeroArea
    case L0Csc => p.l0Csc == ZeroCode
    case L1Csc => p.l1Csc == ZeroCode
    case L0Rotate => p.l0Rotate == ZeroCode
    case L1Rotate => p.l1Rotate == ZeroCode
    case Dither => p.dither == ZeroCode
    case Blend => p.blendConf == ZeroBlendConf
    case PaletteField => p.palette == ZeroPalette
  }

  /** Every field of `p` outside `touched` is zero. */
  predicate ZeroOutside(p: Param, touched: set<Field>)
  {
    forall f: Field :: f !in touched ==> IsZeroField(p, f)
  }

  /** `field` holds a copy of the optional argument `arg`, or the zero value
      `zero` when the argument was a null pointer. */
  predicate CopiedOrZero<T(==)>(field: T, arg: Option<T>, zero: T)
  {
    match arg
    case Some(v) => field == v
    case None => field == zero
  }
}
